=== FILE: README.md ===
# Auction bid and negotiation engine — a Dafny model

This project models the core of a timed-auction server. Sellers list an item with a starting
price, a bid increment, a go-live time and a duration. Bidders raise the current price before
the deadline. The seller then ends the auction (or the expiry sweep does) and accepts, rejects
or counters the top bid, and the buyer answers a counter-offer. Each of these steps writes
durable notifications and broadcasts real-time events.

The server implements every operation twice:

- the Fastify route handlers in `apps/server/src/index.ts`, over a Sequelize store with an
  optional Redis price cache;
- the functions of `apps/server/src/supaRepo.ts`, over a Supabase client, where bid admission
  is a conditional (compare-and-swap) update.

All state is one immutable value, `Domain.Store`. It holds:

- a map of auctions;
- the bid log;
- a map of counter-offers;
- the notification log;
- the broadcast event log;
- the Redis cache (`Disabled` when Redis is not configured).

Every route is a pure function from a store, the caller's id and its arguments to a `Step`:
an outcome (a reply, or a failure kind: `BadRequest`, `Forbidden`, `NotFound`,
`Conflict(reason)`) and the store afterwards. Listing and bidding also take a clock reading in
integer milliseconds. Ending, deciding and replying do not read the clock. The expiry sweep,
`Lifecycle.Sweep`, has no caller: it maps a store, a clock reading and the live listing to the
store afterwards. The functions for
`index.ts` carry the route's name (`PlaceBid`). The ones for `supaRepo.ts` carry a `Repo`
prefix (`RepoPlaceBid`).

Modules:

- `Domain` (domain.dfy): the entities, the store, the two bid queries ("most recent bid" and
  "highest bid"), and `Evolves`, the relation every operation keeps: no row deleted, no fixed
  field changed, logs append-only.
- `Creation` (creation.dfy): listing an auction.
- `CacheBidding` (cache_bidding.dfy): bid admission in `index.ts`. It decides with the cache
  first, seeds a cold cache, then saves without any condition.
- `CasBidding` (cas_bidding.dfy): bid admission in `supaRepo.ts`, a conditional update.
- `Lifecycle` (lifecycle.dfy): the seller's end action and one run of the expiry sweep.
- `Negotiation` (negotiation.dfy): the seller's decision and the buyer's counter reply.
- `Coherence` (coherence.dfy): whether the Redis hashes keep mirroring the rows across the
  operations of `index.ts`. The bid handler trusts a cached price over the row's.

Concurrency is approximated in the only way a sequential model allows. A `...From(view, s, ...)`
variant takes its reads from an earlier state `view` and applies its writes to the live state
`s`. This is how a request that lost a race behaves.

Where the code departs from what an auction is expected to do (a closed auction takes no bids, a status only moves forward, an offer is answered once), the model follows the code:

- `index.ts` never checks the auction's status before admitting a bid, so a closed auction
  whose deadline is ahead still takes bids (`CacheBidding.ClosedAuctionStillTakesBids`).
- In `supaRepo.ts`, only `closed` blocks a bid. An ended auction whose deadline is ahead takes
  bids (`CasBidding.EndedAuctionStillTakesBids`).
- The status can move backwards: the end action overwrites any status with `ended`
  (`Lifecycle.EndReopensClosed`).
- A counter-offer can be answered any number of times. The reply never looks at the offer's
  status, and the later answer overwrites the earlier one (`Negotiation.SecondReplyOverwrites`).
- A counter reply writes no notification, only a broadcast in `index.ts`
  (`Negotiation.FullNegotiation`).
- A decision does not require the auction to have ended.
- The outbid notification is never sent (see Findings).
- No code path ever sets `live` after creation. The only writes of that status are at
  index.ts:127 and supaRepo.ts:31. An auction listed with a future go-live stays `scheduled`,
  so the sweep never ends it. Both backends still take bids on it before go-live
  (`CacheBidding.FirstBidAfterListing`, `CasBidding.ScheduledAuctionTakesBids`).
- An accepted counter-offer lowers the bar for the next bid in `index.ts`, because its price
  never reaches the Redis hash (see Findings).

## Model

| member | source | states |
|---|---|---|
| `Domain.LastBidIndex` | apps/server/src/index.ts:240 | The "most recent bid" query finds a position exactly when the auction has a bid. The bid there is on the auction, and no later bid in the log is. |
| `Domain.LastBidFor` | apps/server/src/supaRepo.ts:77 | The bid returned is in the log and on the auction, no later bid is on the auction, and it is absent exactly when the auction has no bids. |
| `Domain.TopBidIndex` | apps/server/src/index.ts:285 | The "highest bid" query finds a bid exactly when the auction has one. The bid found has an amount at least that of every bid on the auction, and every earlier bid on the auction has a strictly lower amount. |
| `Domain.TopBid` | apps/server/src/supaRepo.ts:100-102 | The top bid is a bid in the log for the auction, with the highest amount. It is absent exactly when the auction has no bids. |
| `Domain.OutbidNotices` | apps/server/src/index.ts:241-243 | At most one outbid notification is written. One is written exactly when the looked-up bid exists and belongs to someone other than the caller, and it goes to that bidder. |
| `Domain.EvolvesTransitive` | apps/server/src/index.ts:201-350 | A sequence of operations, each of which keeps every auction, fixed field and log entry, keeps them all as a whole. |
| `Creation.NewAuction` | apps/server/src/index.ts:115-127 | The new row ends exactly `durationMinutes * 60000` ms after it goes live and starts at its starting price. It is `live` iff the clock is at or past the go-live time, and `scheduled` otherwise. |
| `Creation.CreateAuction` | apps/server/src/index.ts:106-139 | Listing succeeds iff the request meets the schema (title 3..120, description at most 2000, starting price >= 0, increment > 0, duration 1..10080 min); otherwise BadRequest and nothing changes. On success only the new auction is added, and the Redis hash mirrors its price, increment and deadline. |
| `Creation.ListedRowStaysSchemaRow` | apps/server/src/index.ts:90-97 | A row listed through the handler has a positive increment, a non-negative starting price and a window of one minute to seven days, and keeps all three in every later state of the store. |
| `Creation.RepoCreateAuction` | apps/server/src/supaRepo.ts:17-35 | Without any validation, it inserts exactly the row the handler would build: the increment and starting price as given, ending `durationMinutes * 60000` ms after the given go-live, live iff the clock has reached go-live. Every other auction and all other state stay as they were, and `Evolves` holds. |
| `Creation.BackendsCreateSameRow` | apps/server/src/supaRepo.ts:19-31 | For a request the schema admits, both backends insert the same auction row. |
| `CacheBidding.ReadQuote` | apps/server/src/index.ts:214-222 | Each field of the quote comes from the hash when the hash holds it (a truthy price and increment, any deadline) and from the row otherwise. With Redis disabled, or with no hash for the auction, the row alone decides. |
| `CacheBidding.PlaceBidFrom` | apps/server/src/index.ts:201-254 | The handler when its reads come from an earlier state. The checks use the values read. It admits a bid iff the amount is positive, the auction was found, neither deadline is past and amount >= current + step. A hash read without a deadline is seeded with the quote; no other hash changes. An admitted bid overwrites the live price, whatever it is by then. |
| `CacheBidding.PlaceBid` | apps/server/src/index.ts:201-254 | The checks run in order: BadRequest for a non-positive amount, then NotFound, then "Auction ended" when the clock is past the cached or the stored deadline, then "Bid too low" when amount < current + step. A bid that passes all of them is admitted. A cold hash is seeded with the quote, and no other hash changes. A failure changes nothing else. A success stores the amount as the price, appends exactly one bid by the caller, emits exactly one `bid:accepted` event with auction, amount and bidder, and sets the hash's price to the amount. |
| `CacheBidding.PlaceBidFromNeverNotifies` | apps/server/src/index.ts:236-243 | As written, and even when its reads are stale, the handler never writes a notification, so in particular none goes to the caller: the most-recent-bid lookup runs after the caller's own insert. |
| `CacheBidding.PlaceBidNeverNotifies` | apps/server/src/index.ts:236-243 | As written, with no request in flight, the outbid notification is never sent: the most-recent-bid lookup runs after the caller's own insert. |
| `CacheBidding.PlaceBidNotifying` | apps/server/src/index.ts:239-243 | Corrected: the previous most recent bid is looked up before the insert. Its bidder is notified exactly when that bid exists and belongs to someone else. Nothing else differs from the handler. |
| `CacheBidding.CoherentBidIsMonotone` | apps/server/src/index.ts:214-237 | When the hash agrees with the row, the handler decides as the row alone would. It admits a bid iff the amount is positive, the deadline is not past and amount >= price + increment. It then raises the price by at least the increment and leaves the hash coherent. |
| `CacheBidding.FirstBidAfterListing` | apps/server/src/index.ts:126-139 | A freshly listed auction accepts a first bid of starting price plus increment from anyone, at any time up to its deadline. |
| `CacheBidding.ClosedAuctionStillTakesBids` | apps/server/src/index.ts:229-235 | The handler ignores the status: a closed auction whose deadline is ahead still admits a high enough bid. |
| `CacheBidding.StaleSaveLowersPrice` | apps/server/src/index.ts:233-235 | As written: two bidders read the same row, and X's higher bid is saved first. Y's lower bid, judged on the stale read, is still admitted and overwrites the price downwards. |
| `CacheBidding.PlaceBidGuardedFrom` | apps/server/src/index.ts:229-237 | Corrected: the same checks on the values read, and then the save only while the live price is at most amount - step. A bid is admitted iff it passes the checks and that guard; failing only the guard gives a conflict. A success raises the live price by at least the step, and a failure changes nothing but the cache. |
| `CacheBidding.GuardedNeverLowersPrice` | apps/server/src/index.ts:233-235 | However stale its read, the corrected handler never lowers the live price. |
| `CacheBidding.GuardedAgreesWhenGuardHolds` | apps/server/src/supaRepo.ts:66-72 | Whenever the live price still clears the guard, the corrected handler is exactly the handler, however stale its read. |
| `CacheBidding.GuardedAgreesWhenHandlerRefuses` | apps/server/src/index.ts:229-232 | A request the handler refuses on the values it read is refused by the corrected handler with the same failure and the same cache writes. |
| `CacheBidding.GuardedAgreesWhenAlone` | apps/server/src/index.ts:229-237 | With no request in flight and a coherent cache, the corrected handler behaves exactly like the handler in the source. |
| `CasBidding.RepoPlaceBidFrom` | apps/server/src/supaRepo.ts:59-81 | Unknown auction gives 404. A read showing `closed` or a past deadline gives 409 "Auction ended" before any write. Otherwise the guard decides, evaluated against the live row (price <= amount - step, deadline ahead, not closed). A failed guard gives 409 "Bid too low or auction ended" and writes nothing. A success sets the price to the amount, which is at least the live price + step, and inserts exactly one bid. |
| `CasBidding.RepoPlaceBid` | apps/server/src/supaRepo.ts:59-75 | With no concurrent writer: 404, then 409 "Auction ended" for closed or past the deadline. At the deadline instant the guard alone refuses. Before it, the bid is admitted iff amount >= price + increment, and otherwise gets 409 "Bid too low or auction ended". An admitted bid raises the price to the amount. |
| `CasBidding.StaleReadKeepsPriceRising` | apps/server/src/supaRepo.ts:66-75 | However stale the read (any earlier state of the store), the price never falls, and an admitted bid strictly raises it. |
| `CasBidding.ListedPriceNeverFalls` | apps/server/src/supaRepo.ts:66-75 | For an auction listed through the handler, after any sequence of operations, a bid judged on any earlier read never lowers the price, and an admitted one raises it. |
| `CasBidding.RepoPlaceBidNeverNotifies` | apps/server/src/supaRepo.ts:76-80 | As written, the outbid notification is never sent: the lookup runs after the insert. |
| `CasBidding.RepoPlaceBidNotifying` | apps/server/src/supaRepo.ts:76-80 | Corrected: the previous bidder, looked up before the insert, is notified exactly when that bid exists and belongs to someone else. |
| `CasBidding.EndedAuctionStillTakesBids` | apps/server/src/supaRepo.ts:64-72 | Only `closed` blocks a bid: an ended auction with its deadline ahead admits any bid of at least price + increment. |
| `CasBidding.ScheduledAuctionTakesBids` | apps/server/src/supaRepo.ts:64-72 | A `scheduled` auction, before its go-live time and its deadline, admits any bid of at least price + increment: neither the early check nor the guard looks at go-live. |
| `CasBidding.RaceLoserGetsConflict` | apps/server/src/supaRepo.ts:66-75 | Two bidders read the same state and X's update lands first. Y is admitted iff Y's amount is at least X's + step; otherwise Y gets 409 and X's state stands. |
| `CasBidding.EqualBidsRace` | apps/server/src/supaRepo.ts:66-76 | Two concurrent bids of 110 on an auction at 100 with increment 5: the first is admitted and the second gets 409. The final price is 110, with exactly one new bid row. |
| `Lifecycle.EndAuction` | apps/server/src/index.ts:258-272 | The checks run in order: NotFound, then Forbidden for anyone but the seller. The seller sets the status to `ended` whatever it was. Exactly one `auction:ended` event and one seller notification are written, both with final = current price. |
| `Lifecycle.RepoEndAuction` | apps/server/src/supaRepo.ts:84-93 | Same checks: 404, then 403. The seller sets `ended` and adds exactly one seller notification with final = current price; nothing is broadcast. |
| `Lifecycle.BackendsEndAlike` | apps/server/src/supaRepo.ts:86-91 | Both backends give the same outcome and leave the same store, except for the broadcast. |
| `Lifecycle.EndReopensClosed` | apps/server/src/index.ts:265-267 | The end action moves a closed auction back to `ended`. |
| `Lifecycle.ExpiredIds` | apps/server/src/index.ts:374-376 | Every id the sweep ends is a listed auction, live and past its deadline. |
| `Lifecycle.ExpiredIdsComplete` | apps/server/src/index.ts:374-376 | Every live row listed by the sweep whose deadline has passed is among the auctions it ends, each once. |
| `Lifecycle.SweepRowsAuctions` | apps/server/src/index.ts:375-378 | The loop turns each listed row into its swept form (`ended` if it was live and past its deadline). It leaves unlisted auctions, bids, offers and the cache untouched. |
| `Lifecycle.SweepRowsLogs` | apps/server/src/index.ts:375-381 | The loop's event and notification logs grow by exactly the row-by-row outputs, each computed from the state before the sweep. |
| `Lifecycle.RowOutputsPerExpired` | apps/server/src/index.ts:379-380 | Row by row, the outputs are one `auction:ended` event and one seller notification per expired id, carrying its final price. |
| `Lifecycle.Sweep` | apps/server/src/index.ts:370-386 | One sweep ends exactly the live auctions whose deadline is at or before the clock, and leaves every other auction unchanged. It emits one `auction:ended` event and one seller notification, with final price, per ended auction, and nothing else. |
| `Lifecycle.SweepRowsEffect` | apps/server/src/index.ts:375-381 | The loop over a live listing has the effect stated for the sweep: only the expired auctions end, each once, with one event and one notification. |
| `Lifecycle.SweepOfUnexpiredIsNoOp` | apps/server/src/index.ts:376 | Sweeping rows that are all live with their deadline ahead changes nothing. |
| `Lifecycle.SweepIdempotent` | apps/server/src/index.ts:374-381 | A second sweep at the same clock reading, over whatever is then live, is a no-op. |
| `Negotiation.Decided` | apps/server/src/index.ts:288-313 | Once the checks pass, the decision fails only for a counter with a missing or zero amount (BadRequest, nothing changed). Accept and reject close the auction and notify the top bidder. Counter adds one pending offer from the seller to the top bidder and leaves the auction alone. |
| `Negotiation.Decide` | apps/server/src/index.ts:274-314 | The checks run in order: BadRequest for a non-positive amount, then NotFound, then Forbidden for a non-seller, then "No bids", whatever the action. A counter without an amount then gets BadRequest. A decision that passes every check succeeds. Accept and reject close the auction, notify the highest bidder, broadcast one event and answer `{ok}`. Counter creates a pending offer to that bidder, with one notification and one `offer:counter` event. |
| `Negotiation.RepoDecide` | apps/server/src/supaRepo.ts:95-117 | The checks run in order: 404, then 403, then 409 "No bids", then 400 for a counter with an absent or zero amount, and success otherwise. Accept closes the auction and answers the highest bidder and amount. Reject closes the auction. Counter inserts a pending offer to that bidder without changing status. No broadcast. |
| `Negotiation.NoBidsNoDecision` | apps/server/src/index.ts:285-286 | On an auction without bids, every action fails with "No bids" and changes nothing, in both backends. |
| `Negotiation.BackendsDecideAlike` | apps/server/src/supaRepo.ts:97-116 | For a request the schema admits, both backends make the same decision and leave the same store, except for the broadcast. |
| `Negotiation.ReplyToCounter` | apps/server/src/index.ts:316-350 | The checks run in order: NotFound for the offer, Forbidden for anyone but its buyer, then NotFound for the auction; a reply that passes them succeeds. Accept marks the offer accepted and closes the auction at the offer amount. Reject marks it rejected and closes the auction. Exactly one `offer:accepted` or `offer:rejected` event is emitted, and no notification is written. |
| `Negotiation.RepoReplyToCounter` | apps/server/src/supaRepo.ts:119-135 | The checks run in order: 404, 403, 404. It succeeds iff the caller is the offer's buyer and the auction exists. The writes are the same as in `index.ts`, without a broadcast, and an accept answers the amount. The outcome depends only on the accept flag, never on the offer's prior status. |
| `Negotiation.SecondReplyOverwrites` | apps/server/src/index.ts:329-346 | After any successful reply, the buyer can reply again. The second answer succeeds and overwrites the offer's status. |
| `Negotiation.FullNegotiation` | apps/server/src/index.ts:308-346 | Top bid 250, seller counters 275, buyer accepts: the auction is closed at 275 and the offer is accepted. The only notification written is the counter to the buyer. |
| `Coherence.CreateKeepsCoherent` | apps/server/src/index.ts:139 | Listing seeds the new hash with the row's price, increment and deadline. If every hash mirrored its row before, every hash still does. |
| `Coherence.PlaceBidKeepsCoherent` | apps/server/src/index.ts:219-237 | An admitted bid writes the same price to the row and the hash. A refused one only seeds a hash from a mirrored read. Either way, coherence of all hashes is kept. |
| `Coherence.EndKeepsCoherent` | apps/server/src/index.ts:265-267 | The seller's end changes only a status, so coherence is kept. |
| `Coherence.DecideKeepsCoherent` | apps/server/src/index.ts:288-313 | A decision closes an auction or opens an offer, and changes no price, so coherence is kept. |
| `Coherence.SweepKeepsCoherent` | apps/server/src/index.ts:374-378 | The sweep changes only statuses, so coherence is kept. |
| `Coherence.AcceptedCounterLowersPrice` | apps/server/src/index.ts:329-334 | As written, with no concurrent request: from price and hash at 250 with step 5, a counter of 275 that is accepted leaves the hash incoherent at 250. A later bid of 255 is admitted and the price falls from 275 to 255. |
| `Coherence.ReplyToCounterMirrored` | apps/server/src/index.ts:329-347 | Corrected: the same outcome and the same store as the counter reply, except that an accepted offer's amount is also written to the auction's hash. No other hash changes, and a reject or a failure leaves the cache alone. |
| `Coherence.MirroredReplyKeepsCoherent` | apps/server/src/index.ts:329-334 | With the corrected reply, coherence of all hashes is kept. |
| `Coherence.MirroredCounterKeepsPrice` | apps/server/src/index.ts:329-334 | With the corrected reply, the same negotiation leaves the hash coherent at 275, and the bid of 255 is refused as too low with nothing changed. |

## Findings

| source | as written | input that shows it | evidently intended | confidence | as-written member | corrected member |
|---|---|---|---|---|---|---|
| apps/server/src/index.ts:236-243 | the "most recent bid" is looked up after the caller's bid is inserted, so it is always the caller's own and the outbid notification never fires | bidder A bids 110, then bidder B bids 120: A gets no `bid:outbid` notification | notify the bidder of the previous most recent bid when it is not the caller | high, not executed | `CacheBidding.PlaceBidNeverNotifies` | `CacheBidding.PlaceBidNotifying` |
| apps/server/src/supaRepo.ts:76-80 | same ordering: insert first, then look up the most recent bid | same input as above | same | high, not executed | `CasBidding.RepoPlaceBidNeverNotifies` | `CasBidding.RepoPlaceBidNotifying` |
| apps/server/src/index.ts:233-235 | the new price is saved unconditionally after checks made on an earlier read | price 100, step 5; X and Y read the row, X's 120 is saved, then Y's 110 is saved: price 110 | admit the write only while the stored price is at most amount - step, as the conditional update in supaRepo.ts does | medium, not executed | `CacheBidding.StaleSaveLowersPrice` | `CacheBidding.PlaceBidGuardedFrom` |
| apps/server/src/index.ts:329-334 | accepting a counter-offer saves its amount as the row's price, but the Redis hash keeps the old price, which the bid handler then trusts over the row | price and hash at 250, step 5, top bid 250; the seller counters at 275 and the buyer accepts; a bid of 255 is admitted and the price falls from 275 to 255 | write the accepted amount to the hash as well, as an admitted bid does at index.ts:237 | medium, not executed | `Coherence.AcceptedCounterLowersPrice` | `Coherence.ReplyToCounterMirrored` |

The operations of the model (`PlaceBid`, `RepoPlaceBid`) keep the source's behaviour, so that
every other lemma describes the code as it is. The corrected members stand beside them and
are proved against them. `PlaceBidNotifying` and `RepoPlaceBidNotifying` give the same
outcome and the same store apart from the notification. `PlaceBidGuardedFrom` behaves exactly
like the handler whenever the live price still clears the guard
(`CacheBidding.GuardedAgreesWhenGuardHolds`), and otherwise refuses with a conflict.
`ReplyToCounterMirrored` gives the same outcome and the same store apart from the hash of the
auction.

## Left out

- Identity resolution (`getAuthUser`) and the `Unauthenticated` reply: the caller's id is an input.
- The "DB not configured" / "Supabase not configured" replies and every storage, network or Redis error: the store is an always-available value.
- Schema parsing itself: `CreateAuction` keeps its bounds as `ValidRequest`. Bid and decision amounts keep their positivity check. The go-live string is already an integer time. String lengths are counted in characters, not UTF-16 code units.
- Read-only routes (list auctions, get auction, list bids, list notifications), `/health` and `/health/check`, CORS, rate limiting and static files: transport, no state change.
- E-mail on acceptance (`getUserEmail`, `buildInvoiceHtml`, `sendEmail`) and `apps/server/src/sms.ts`: best-effort delivery with no effect on the state. `email.js`, `users.js` and `sequelize.js` are not part of this model.
- The WebSocket server, the `hello` greeting and per-client delivery: `broadcast` is an append to the event log.
- `setInterval`: the model is one sweep invocation over the listing the `status = live` query returns.
- True concurrency: only "stale read, then write against the live state" for bid admission.
- nanoid: auction and counter-offer ids are fresh parameters. Bid and notification rows have no id; their log position identifies them.
- Timestamps: one clock reading per request, although the bid handler in `index.ts` reads the clock three times: at index.ts:229 and :230 for the deadline checks, and at :251 for the `at` field of `bid:accepted`. That last reading comes after five awaits. The model uses the check-time reading for all three, including the `at` field. ISO-string deadline comparisons are integer comparisons. This assumes every deadline string has the `toISOString` form. In supaRepo.ts:64 the deadline is whatever Supabase returns; in a `+00:00` form, the clock string at the exact deadline instant compares greater, so the early check, not the guard, refuses that bid (`CasBidding.RepoPlaceBid` states the guard refuses it). A bid's `createdAt` is the request's clock reading, and log order stands for `createdAt` order.
- JavaScript floating-point prices: prices are integers.
- The counter-offer's `pending` status in `index.ts` is assumed to be the Sequelize model's default, because the handler does not set it.
- Ties in the "highest bid" query: the database's order among equal amounts is unspecified. The model commits to the earliest bid among equals (`Domain.TopBidIndex`), and the decisions use that bid.
- The auction's `createdAt` column: nothing in the core reads it.

=== FILE: cache_bidding.dfy ===
/** Bid admission in the route handler of apps/server/src/index.ts: the
    handler reads the auction row, lets the Redis hash override the price,
    increment and deadline it decides with (seeding a cold hash), checks the
    deadline and the minimum bid, and then saves the new price without any
    condition on the stored row. */
module CacheBidding {
  import opened Domain
  import Creation

  /** The values a bid is judged by. */
  datatype Quote = Quote(current: int, step: int, endsAt: int)

  function RowQuote(a: Auction): Quote {
    Quote(a.currentPrice, a.bidIncrement, a.endsAt)
  }

  /** The hash for `aid`; a missing key reads as a hash with no fields. */
  function EntryOf(c: Cache, aid: Id): CacheEntry {
    if c.Redis? && aid in c.entries then c.entries[aid] else CacheEntry(None, None, None)
  }

  /** Each truthy cached field overrides the row's value; with Redis
      disabled the row decides alone. */
  function ReadQuote(row: Auction, c: Cache, aid: Id): (q: Quote)
    ensures c.Disabled? ==> q == RowQuote(row)
    ensures c.Redis? && aid !in c.entries ==> q == RowQuote(row)
    ensures !Truthy(EntryOf(c, aid).current) ==> q.current == row.currentPrice
    ensures Truthy(EntryOf(c, aid).current) ==> q.current == EntryOf(c, aid).current.value
    ensures !Truthy(EntryOf(c, aid).step) ==> q.step == row.bidIncrement
    ensures Truthy(EntryOf(c, aid).step) ==> q.step == EntryOf(c, aid).step.value
    ensures EntryOf(c, aid).endsAt.None? ==> q.endsAt == row.endsAt
    ensures EntryOf(c, aid).endsAt.Some? ==> q.endsAt == EntryOf(c, aid).endsAt.value
  {
    if c.Disabled? then RowQuote(row)
    else
      var e := EntryOf(c, aid);
      Quote(
        if Truthy(e.current) then e.current.value else row.currentPrice,
        if Truthy(e.step) then e.step.value else row.bidIncrement,
        if e.endsAt.Some? then e.endsAt.value else row.endsAt)
  }

  /** A hash read without a deadline is re-written with the quote the
      handler settled on. The write goes to the live cache `c`. */
  function Seed(c: Cache, read: CacheEntry, aid: Id, q: Quote): Cache {
    if c.Disabled? || read.endsAt.Some? then c
    else Redis(c.entries[aid := CacheEntry(Some(q.current), Some(q.step), Some(q.endsAt))])
  }

  /** After an admitted bid the hash's `current` field is set to the bid. */
  function SetCurrent(c: Cache, aid: Id, amount: int): Cache {
    if c.Disabled? then c
    else
      var e := EntryOf(c, aid);
      Redis(c.entries[aid := e.(current := Some(amount))])
  }

  /** The handler with its reads taken from `view` (an earlier state of the
      row and the cache, as a concurrent request may see them) and its
      writes applied to the live state `s`. */
  function PlaceBidFrom(view: Store, s: Store, caller: UserId, now: int, aid: Id, amount: int): (r: Step)
    requires view.auctions.Keys <= s.auctions.Keys
    // the checks, in order, all on the values read
    ensures amount <= 0 ==> r == Fail(BadRequest, s)
    ensures amount > 0 && aid !in view.auctions ==> r == Fail(NotFound, s)
    ensures amount > 0 && aid in view.auctions ==>
      var row := view.auctions[aid];
      var q := ReadQuote(row, view.cache, aid);
      && (now > q.endsAt || now > row.endsAt ==> r.outcome == Err(Conflict(AuctionOver)))
      && (now <= q.endsAt && now <= row.endsAt && amount < q.current + q.step ==> r.outcome == Err(Conflict(BidTooLow)))
      && (r.outcome.Ok? <==> now <= q.endsAt && now <= row.endsAt && amount >= q.current + q.step)
      // a hash read without a deadline is seeded with the quote, before the bid sets its price
      && (s.cache.Redis? && EntryOf(view.cache, aid).endsAt.None? ==>
            EntryOf(r.store.cache, aid)
            == CacheEntry(Some(if r.outcome.Ok? then amount else q.current), Some(q.step), Some(q.endsAt)))
      && (s.cache.Redis? && EntryOf(view.cache, aid).endsAt.Some? ==>
            EntryOf(r.store.cache, aid)
            == if r.outcome.Ok? then EntryOf(s.cache, aid).(current := Some(amount)) else EntryOf(s.cache, aid))
    ensures forall k :: k != aid ==> EntryOf(r.store.cache, k) == EntryOf(s.cache, k)
    ensures r.store.cache.Disabled? <==> s.cache.Disabled?
    ensures r.outcome.Err? ==> r.store.(cache := s.cache) == s
    // the save overwrites the live price, whatever it is by now
    ensures r.outcome.Ok? ==>
      && r.outcome.reply == BidPlaced
      && aid in view.auctions
      && r.store.auctions == s.auctions[aid := s.auctions[aid].(currentPrice := amount)]
      && r.store.bids == s.bids + [Bid(aid, caller, amount, now)]
      && r.store.offers == s.offers
      && r.store.events == s.events + [BidAccepted(aid, amount, caller, now)]
    ensures Evolves(s, r.store)
  {
    if amount <= 0 then Fail(BadRequest, s)
    else if aid !in view.auctions then Fail(NotFound, s)
    else
      var row := view.auctions[aid];
      var q := ReadQuote(row, view.cache, aid);
      var seeded := s.(cache := Seed(s.cache, EntryOf(view.cache, aid), aid, q));
      if now > q.endsAt || now > row.endsAt then Fail(Conflict(AuctionOver), seeded)
      else if amount < q.current + q.step then Fail(Conflict(BidTooLow), seeded)
      else Admit(seeded, caller, now, aid, amount)
  }

  /** The writes of an admitted bid: the unconditional save of the price,
      the bid row, the cache's `current`, the outbid lookup (which runs
      after the insert) and the `bid:accepted` broadcast. */
  function Admit(s: Store, caller: UserId, now: int, aid: Id, amount: int): (r: Step)
    requires aid in s.auctions
  {
    var bids := s.bids + [Bid(aid, caller, amount, now)];
    Step(Ok(BidPlaced), s.(
      auctions := s.auctions[aid := s.auctions[aid].(currentPrice := amount)],
      bids := bids,
      cache := SetCurrent(s.cache, aid, amount),
      notifications := s.notifications + OutbidNotices(LastBidFor(bids, aid), caller, aid, amount),
      events := s.events + [BidAccepted(aid, amount, caller, now)]))
  }

  /** POST /api/auctions/:id/bids, with no other request in flight. */
  function PlaceBid(s: Store, caller: UserId, now: int, aid: Id, amount: int): (r: Step)
    // the checks, in order
    ensures amount <= 0 ==> r == Fail(BadRequest, s)
    ensures amount > 0 && aid !in s.auctions ==> r == Fail(NotFound, s)
    ensures amount > 0 && aid in s.auctions ==>
      var q := ReadQuote(s.auctions[aid], s.cache, aid);
      && (now > q.endsAt || now > s.auctions[aid].endsAt <==> r.outcome == Err(Conflict(AuctionOver)))
      && ((now <= q.endsAt && now <= s.auctions[aid].endsAt && amount < q.current + q.step)
          <==> r.outcome == Err(Conflict(BidTooLow)))
      // a bid that passes every check is admitted
      && (now <= q.endsAt && now <= s.auctions[aid].endsAt && amount >= q.current + q.step ==> r.outcome.Ok?)
      // a cold hash is seeded with the quote; only the hash of `aid` changes
      && (s.cache.Redis? && EntryOf(s.cache, aid).endsAt.None? ==>
            EntryOf(r.store.cache, aid)
            == CacheEntry(Some(if r.outcome.Ok? then amount else q.current), Some(q.step), Some(q.endsAt)))
      && (s.cache.Redis? && EntryOf(s.cache, aid).endsAt.Some? && r.outcome.Err? ==>
            EntryOf(r.store.cache, aid) == EntryOf(s.cache, aid))
    ensures forall k :: k != aid ==> EntryOf(r.store.cache, k) == EntryOf(s.cache, k)
    // a failure changes nothing but, possibly, a cold cache entry
    ensures r.outcome.Err? ==> r.store.(cache := s.cache) == s
    // an admitted bid
    ensures r.outcome.Ok? ==>
      && r.outcome.reply == BidPlaced
      && aid in s.auctions
      && r.store.auctions == s.auctions[aid := s.auctions[aid].(currentPrice := amount)]
      && r.store.bids == s.bids + [Bid(aid, caller, amount, now)]
      && r.store.offers == s.offers
      && r.store.events == s.events + [BidAccepted(aid, amount, caller, now)]
      && (s.cache.Redis? ==> EntryOf(r.store.cache, aid).current == Some(amount))
      && (s.cache.Redis? && EntryOf(s.cache, aid).endsAt.Some? ==>
            EntryOf(r.store.cache, aid) == EntryOf(s.cache, aid).(current := Some(amount)))
    ensures r.store.cache.Disabled? <==> s.cache.Disabled?
    ensures Evolves(s, r.store)
  {
    PlaceBidFrom(s, s, caller, now, aid, amount)
  }

  /** The outbid notification is never sent: the lookup of the most recent
      bid runs after the caller's own bid has been inserted, so it always
      finds the caller. */
  lemma PlaceBidFromNeverNotifies(view: Store, s: Store, caller: UserId, now: int, aid: Id, amount: int)
    requires view.auctions.Keys <= s.auctions.Keys
    ensures PlaceBidFrom(view, s, caller, now, aid, amount).store.notifications == s.notifications
  {
    var r := PlaceBidFrom(view, s, caller, now, aid, amount);
    if r.outcome.Ok? {
      var bids := s.bids + [Bid(aid, caller, amount, now)];
      assert LastBidFor(bids, aid) == Some(Bid(aid, caller, amount, now));
    }
  }

  /** The same for the handler with no other request in flight. */
  lemma PlaceBidNeverNotifies(s: Store, caller: UserId, now: int, aid: Id, amount: int)
    ensures PlaceBid(s, caller, now, aid, amount).store.notifications == s.notifications
  {
    PlaceBidFromNeverNotifies(s, s, caller, now, aid, amount);
  }

  /** Corrected handler: the most recent bid is looked up before the new one
      is inserted, so the bidder it finds is the one being outbid. */
  function PlaceBidNotifying(s: Store, caller: UserId, now: int, aid: Id, amount: int): (r: Step)
    ensures r.outcome == PlaceBid(s, caller, now, aid, amount).outcome
    ensures r.outcome.Ok? ==>
      var prev := LastBidFor(s.bids, aid);
      && r.store.notifications == s.notifications + OutbidNotices(prev, caller, aid, amount)
      && (|r.store.notifications| == |s.notifications| + 1 <==> prev.Some? && prev.value.bidderId != caller)
    ensures r.store.(notifications := s.notifications) == PlaceBid(s, caller, now, aid, amount).store
  {
    var r := PlaceBid(s, caller, now, aid, amount);
    PlaceBidNeverNotifies(s, caller, now, aid, amount);
    if r.outcome.Err? then r
    else
      var prev := LastBidFor(s.bids, aid);
      Step(r.outcome, r.store.(notifications := s.notifications + OutbidNotices(prev, caller, aid, amount)))
  }

  /** The cache mirrors the row for `aid`: every field present in the hash
      holds the row's value. */
  predicate Coherent(s: Store, aid: Id)
    requires aid in s.auctions
  {
    var e := EntryOf(s.cache, aid);
    var a := s.auctions[aid];
    && (e.current.Some? ==> e.current.value == a.currentPrice)
    && (e.step.Some? ==> e.step.value == a.bidIncrement)
    && (e.endsAt.Some? ==> e.endsAt.value == a.endsAt)
  }

  /** With a coherent cache the handler decides exactly as the row alone
      would, keeps the cache coherent, and an admitted bid raises the price
      by at least the increment. */
  lemma CoherentBidIsMonotone(s: Store, caller: UserId, now: int, aid: Id, amount: int)
    requires aid in s.auctions && Coherent(s, aid)
    ensures ReadQuote(s.auctions[aid], s.cache, aid) == RowQuote(s.auctions[aid])
    ensures var r := PlaceBid(s, caller, now, aid, amount);
      && Coherent(r.store, aid)
      && (r.outcome.Ok? <==> amount > 0 && now <= s.auctions[aid].endsAt
                               && amount >= s.auctions[aid].currentPrice + s.auctions[aid].bidIncrement)
      && (r.outcome.Ok? ==> r.store.auctions[aid].currentPrice >= s.auctions[aid].currentPrice + s.auctions[aid].bidIncrement)
  {
    var a := s.auctions[aid];
    var e := EntryOf(s.cache, aid);
    var q := ReadQuote(a, s.cache, aid);
    if s.cache.Redis? {
      assert q.current == a.currentPrice by {
        if Truthy(e.current) { assert e.current.value == a.currentPrice; }
      }
      assert q.step == a.bidIncrement by {
        if Truthy(e.step) { assert e.step.value == a.bidIncrement; }
      }
      assert q.endsAt == a.endsAt;
    }
    assert q == RowQuote(a);
    var r := PlaceBid(s, caller, now, aid, amount);
    if amount > 0 {
      var seeded := Seed(s.cache, e, aid, q);
      assert EntryOf(seeded, aid) == e || EntryOf(seeded, aid) == Creation.Mirror(a);
    }
  }

  /** A freshly listed auction takes a first bid of its starting price plus
      one increment from anyone, at any time up to its deadline. */
  lemma FirstBidAfterListing(s: Store, seller: UserId, bidder: UserId, created: int, now: int, id: Id, q: Creation.CreateRequest)
    requires id !in s.auctions && Creation.ValidRequest(q)
    requires now <= q.goLiveAt + q.durationMinutes * Creation.MinuteMs
    ensures var t := Creation.CreateAuction(s, seller, created, id, q).store;
      var r := PlaceBid(t, bidder, now, id, q.startingPrice + q.bidIncrement);
      r.outcome == Ok(BidPlaced) && r.store.auctions[id].currentPrice == q.startingPrice + q.bidIncrement
  {
    var t := Creation.CreateAuction(s, seller, created, id, q).store;
    assert Coherent(t, id);
    CoherentBidIsMonotone(t, bidder, now, id, q.startingPrice + q.bidIncrement);
  }

  /** The handler never looks at the status: an auction already closed by a
      seller decision still takes a high enough bid before its deadline. */
  lemma ClosedAuctionStillTakesBids(s: Store, caller: UserId, now: int, aid: Id, amount: int)
    requires aid in s.auctions && s.auctions[aid].status == Closed && s.cache.Disabled?
    requires 0 < amount && now <= s.auctions[aid].endsAt
    requires amount >= s.auctions[aid].currentPrice + s.auctions[aid].bidIncrement
    ensures PlaceBid(s, caller, now, aid, amount).outcome == Ok(BidPlaced)
    ensures PlaceBid(s, caller, now, aid, amount).store.auctions[aid].status == Closed
  {
  }

  /** The save is unconditional, so a request that read the row before a
      concurrent higher bid landed overwrites that bid: the price falls. */
  lemma StaleSaveLowersPrice(v: Store, x: UserId, y: UserId, now: int, aid: Id, a: int, b: int)
    requires aid in v.auctions && v.cache.Disabled?
    requires now <= v.auctions[aid].endsAt
    requires v.auctions[aid].currentPrice + v.auctions[aid].bidIncrement <= b < a && 0 < b
    ensures var s1 := PlaceBid(v, x, now, aid, a).store;
      var r := PlaceBidFrom(v, s1, y, now, aid, b);
      && PlaceBid(v, x, now, aid, a).outcome == Ok(BidPlaced)
      && s1.auctions[aid].currentPrice == a
      && r.outcome == Ok(BidPlaced)
      && r.store.auctions[aid].currentPrice == b < a
  {
    var s1 := PlaceBid(v, x, now, aid, a).store;
    assert s1.auctions[aid].currentPrice == a;
  }

  /** Corrected handler: the same checks, but the price is written only if
      the live row still has `currentPrice <= amount - step`, the price
      predicate of the conditional update in supaRepo.ts. */
  function PlaceBidGuardedFrom(view: Store, s: Store, caller: UserId, now: int, aid: Id, amount: int): (r: Step)
    requires view.auctions.Keys <= s.auctions.Keys
    ensures amount <= 0 ==> r == Fail(BadRequest, s)
    ensures amount > 0 && aid !in view.auctions ==> r == Fail(NotFound, s)
    // the checks on the values read, then the guard on the live row
    ensures amount > 0 && aid in view.auctions ==>
      var row := view.auctions[aid];
      var q := ReadQuote(row, view.cache, aid);
      && (r.outcome.Ok? <==>
            now <= q.endsAt && now <= row.endsAt && amount >= q.current + q.step
            && s.auctions[aid].currentPrice <= amount - q.step)
      && ((now <= q.endsAt && now <= row.endsAt && amount >= q.current + q.step
           && s.auctions[aid].currentPrice > amount - q.step) ==> r.outcome == Err(Conflict(TooLowOrEnded)))
    ensures r.outcome.Err? ==> r.store.(cache := s.cache) == s
    ensures r.outcome.Ok? ==>
      && aid in view.auctions
      && r.store.auctions == s.auctions[aid := s.auctions[aid].(currentPrice := amount)]
      && amount >= s.auctions[aid].currentPrice + ReadQuote(view.auctions[aid], view.cache, aid).step
    ensures Evolves(s, r.store)
  {
    if amount <= 0 then Fail(BadRequest, s)
    else if aid !in view.auctions then Fail(NotFound, s)
    else
      var row := view.auctions[aid];
      var q := ReadQuote(row, view.cache, aid);
      var seeded := s.(cache := Seed(s.cache, EntryOf(view.cache, aid), aid, q));
      if now > q.endsAt || now > row.endsAt then Fail(Conflict(AuctionOver), seeded)
      else if amount < q.current + q.step then Fail(Conflict(BidTooLow), seeded)
      else if s.auctions[aid].currentPrice > amount - q.step then Fail(Conflict(TooLowOrEnded), seeded)
      else Admit(seeded, caller, now, aid, amount)
  }

  /** The corrected handler never lowers the price, however stale its read,
      when the increment it uses is positive. */
  lemma GuardedNeverLowersPrice(view: Store, s: Store, caller: UserId, now: int, aid: Id, amount: int)
    requires Evolves(view, s) && aid in view.auctions
    requires ReadQuote(view.auctions[aid], view.cache, aid).step > 0
    ensures var r := PlaceBidGuardedFrom(view, s, caller, now, aid, amount);
      r.store.auctions[aid].currentPrice >= s.auctions[aid].currentPrice
  {
  }

  /** Whenever the live price still clears the guard, the corrected handler
      does exactly what the handler in index.ts does, stale read or not. */
  lemma GuardedAgreesWhenGuardHolds(view: Store, s: Store, caller: UserId, now: int, aid: Id, amount: int)
    requires view.auctions.Keys <= s.auctions.Keys
    requires aid in view.auctions ==>
      s.auctions[aid].currentPrice <= amount - ReadQuote(view.auctions[aid], view.cache, aid).step
    ensures PlaceBidGuardedFrom(view, s, caller, now, aid, amount) == PlaceBidFrom(view, s, caller, now, aid, amount)
  {
  }

  /** A request the handler in index.ts refuses on the values it read is
      refused by the corrected handler in the same way, with the same cache
      writes: the guard only adds refusals. */
  lemma GuardedAgreesWhenHandlerRefuses(view: Store, s: Store, caller: UserId, now: int, aid: Id, amount: int)
    requires view.auctions.Keys <= s.auctions.Keys
    requires PlaceBidFrom(view, s, caller, now, aid, amount).outcome.Err?
    ensures PlaceBidGuardedFrom(view, s, caller, now, aid, amount) == PlaceBidFrom(view, s, caller, now, aid, amount)
  {
  }

  /** With no request in flight and a coherent cache, the guard never fires:
      the corrected handler behaves exactly as the handler in index.ts. */
  lemma GuardedAgreesWhenAlone(s: Store, caller: UserId, now: int, aid: Id, amount: int)
    requires aid in s.auctions && Coherent(s, aid)
    ensures PlaceBidGuardedFrom(s, s, caller, now, aid, amount) == PlaceBid(s, caller, now, aid, amount)
  {
    CoherentBidIsMonotone(s, caller, now, aid, amount);
  }
}

=== FILE: cas_bidding.dfy ===
/** Bid admission in `placeBid` of apps/server/src/supaRepo.ts: a read of
    the auction, an early rejection of closed or expired auctions, and then a
    compare-and-swap update whose predicate is evaluated by the store against
    the row as it is at the moment of the write. */
module CasBidding {
  import opened Domain
  import Creation

  /** The predicate of the conditional update: the stored price is still at
      most `amount - step`, the deadline is still ahead and the auction is
      not closed. */
  predicate CasGuard(row: Auction, amount: int, step: int, now: int) {
    row.currentPrice <= amount - step && row.endsAt > now && row.status != Closed
  }

  /** `placeBid` with its read taken from `view` (possibly stale) and the
      conditional update evaluated against the live state `s`. */
  function RepoPlaceBidFrom(view: Store, s: Store, caller: UserId, now: int, aid: Id, amount: int): (r: Step)
    requires view.auctions.Keys <= s.auctions.Keys
    ensures aid !in view.auctions ==> r == Fail(NotFound, s)
    ensures aid in view.auctions && (view.auctions[aid].status == Closed || now > view.auctions[aid].endsAt)
      ==> r == Fail(Conflict(AuctionOver), s)
    ensures r.outcome.Err? ==> r.store == s
    // the guard alone decides a bid that passed the early checks
    ensures aid in view.auctions && view.auctions[aid].status != Closed && now <= view.auctions[aid].endsAt ==>
      (r.outcome.Ok? <==> CasGuard(s.auctions[aid], amount, view.auctions[aid].bidIncrement, now))
    ensures aid in view.auctions && view.auctions[aid].status != Closed && now <= view.auctions[aid].endsAt
      && !CasGuard(s.auctions[aid], amount, view.auctions[aid].bidIncrement, now)
      ==> r == Fail(Conflict(TooLowOrEnded), s)
    ensures r.outcome.Ok? ==>
      && r.outcome.reply == BidPlaced
      && aid in view.auctions
      && r.store.auctions == s.auctions[aid := s.auctions[aid].(currentPrice := amount)]
      && amount >= s.auctions[aid].currentPrice + view.auctions[aid].bidIncrement
      && r.store.bids == s.bids + [Bid(aid, caller, amount, now)]
      && r.store.offers == s.offers && r.store.events == s.events && r.store.cache == s.cache
    ensures Evolves(s, r.store)
  {
    if aid !in view.auctions then Fail(NotFound, s)
    else
      var a := view.auctions[aid];
      if a.status == Closed || now > a.endsAt then Fail(Conflict(AuctionOver), s)
      else
        var step := a.bidIncrement;
        var row := s.auctions[aid];
        if !CasGuard(row, amount, step, now) then Fail(Conflict(TooLowOrEnded), s)
        else
          var bids := s.bids + [Bid(aid, caller, amount, now)];
          Step(Ok(BidPlaced), s.(
            auctions := s.auctions[aid := row.(currentPrice := amount)],
            bids := bids,
            notifications := s.notifications + OutbidNotices(LastBidFor(bids, aid), caller, aid, amount)))
  }

  /** `placeBid` with no other request in flight. */
  function RepoPlaceBid(s: Store, caller: UserId, now: int, aid: Id, amount: int): (r: Step)
    ensures aid !in s.auctions ==> r == Fail(NotFound, s)
    ensures aid in s.auctions ==>
      var a := s.auctions[aid];
      && (a.status == Closed || now > a.endsAt ==> r == Fail(Conflict(AuctionOver), s))
      && (a.status != Closed && now == a.endsAt ==> r == Fail(Conflict(TooLowOrEnded), s))
      && (a.status != Closed && now < a.endsAt ==>
            (r.outcome.Ok? <==> amount >= a.currentPrice + a.bidIncrement))
      && (a.status != Closed && now < a.endsAt && amount < a.currentPrice + a.bidIncrement ==>
            r == Fail(Conflict(TooLowOrEnded), s))
    ensures r.outcome.Err? ==> r.store == s
    ensures r.outcome.Ok? ==>
      && aid in s.auctions && aid in r.store.auctions
      && r.store.auctions[aid].currentPrice == amount >= s.auctions[aid].currentPrice + s.auctions[aid].bidIncrement
    ensures Evolves(s, r.store)
  {
    RepoPlaceBidFrom(s, s, caller, now, aid, amount)
  }

  /** Because the guard is evaluated against the live row, the price only
      rises, and strictly so, however stale the read was, as long as the
      read is of an earlier state of the same auction. */
  lemma StaleReadKeepsPriceRising(view: Store, s: Store, caller: UserId, now: int, aid: Id, amount: int)
    requires Evolves(view, s)
    requires aid in view.auctions && view.auctions[aid].bidIncrement > 0
    ensures var r := RepoPlaceBidFrom(view, s, caller, now, aid, amount);
      r.store.auctions[aid].currentPrice >= s.auctions[aid].currentPrice
      && (r.outcome.Ok? ==> r.store.auctions[aid].currentPrice > s.auctions[aid].currentPrice)
  {
    assert SameFixedFields(view.auctions[aid], s.auctions[aid]);
  }

  /** For an auction listed through the handler, the price never falls under
      this backend, whatever happened to the store since the listing and
      however stale the read. */
  lemma ListedPriceNeverFalls(s0: Store, seller: UserId, created: int, id: Id, q: Creation.CreateRequest,
                              view: Store, s: Store, caller: UserId, now: int, amount: int)
    requires id !in s0.auctions && Creation.CreateAuction(s0, seller, created, id, q).outcome.Ok?
    requires Evolves(Creation.CreateAuction(s0, seller, created, id, q).store, view) && Evolves(view, s)
    ensures var r := RepoPlaceBidFrom(view, s, caller, now, id, amount);
      && r.store.auctions[id].currentPrice >= s.auctions[id].currentPrice
      && (r.outcome.Ok? ==> r.store.auctions[id].currentPrice > s.auctions[id].currentPrice)
  {
    Creation.ListedRowStaysSchemaRow(s0, seller, created, id, q, view);
    StaleReadKeepsPriceRising(view, s, caller, now, id, amount);
  }

  /** The outbid notification is never sent by this backend either: the
      most recent bid is looked up after the caller's own insert. */
  lemma RepoPlaceBidNeverNotifies(view: Store, s: Store, caller: UserId, now: int, aid: Id, amount: int)
    requires view.auctions.Keys <= s.auctions.Keys
    ensures RepoPlaceBidFrom(view, s, caller, now, aid, amount).store.notifications == s.notifications
  {
    var r := RepoPlaceBidFrom(view, s, caller, now, aid, amount);
    if r.outcome.Ok? {
      var bids := s.bids + [Bid(aid, caller, amount, now)];
      assert LastBidFor(bids, aid) == Some(Bid(aid, caller, amount, now));
    }
  }

  /** Corrected `placeBid`: the previous bidder is looked up before the
      insert and notified when it is someone other than the caller. */
  function RepoPlaceBidNotifying(s: Store, caller: UserId, now: int, aid: Id, amount: int): (r: Step)
    ensures r.outcome == RepoPlaceBid(s, caller, now, aid, amount).outcome
    ensures r.outcome.Ok? ==>
      var prev := LastBidFor(s.bids, aid);
      && r.store.notifications == s.notifications + OutbidNotices(prev, caller, aid, amount)
      && (|r.store.notifications| == |s.notifications| + 1 <==> prev.Some? && prev.value.bidderId != caller)
    ensures r.store.(notifications := s.notifications) == RepoPlaceBid(s, caller, now, aid, amount).store
  {
    var r := RepoPlaceBid(s, caller, now, aid, amount);
    RepoPlaceBidNeverNotifies(s, s, caller, now, aid, amount);
    if r.outcome.Err? then r
    else
      var prev := LastBidFor(s.bids, aid);
      Step(r.outcome, r.store.(notifications := s.notifications + OutbidNotices(prev, caller, aid, amount)))
  }

  /** Only `closed` blocks a bid: an auction the seller has ended early, whose
      deadline is still ahead, takes any bid of at least price plus increment. */
  lemma EndedAuctionStillTakesBids(s: Store, caller: UserId, now: int, aid: Id, amount: int)
    requires aid in s.auctions && s.auctions[aid].status == Ended && now < s.auctions[aid].endsAt
    requires amount >= s.auctions[aid].currentPrice + s.auctions[aid].bidIncrement
    ensures RepoPlaceBid(s, caller, now, aid, amount).outcome == Ok(BidPlaced)
  {
  }

  /** Nothing moves a `scheduled` auction to `live`, and nothing needs to:
      before its go-live time it takes any bid of at least price plus
      increment. */
  lemma ScheduledAuctionTakesBids(s: Store, caller: UserId, now: int, aid: Id, amount: int)
    requires aid in s.auctions && s.auctions[aid].status == Scheduled
    requires now < s.auctions[aid].goLiveAt && now < s.auctions[aid].endsAt
    requires amount >= s.auctions[aid].currentPrice + s.auctions[aid].bidIncrement
    ensures RepoPlaceBid(s, caller, now, aid, amount).outcome == Ok(BidPlaced)
  {
  }

  /** Two bidders read the same state, and X's update lands first. Y's update
      is then admitted only if it clears X's amount by the increment;
      otherwise Y gets a conflict and X's state stands untouched. */
  lemma RaceLoserGetsConflict(v: Store, x: UserId, y: UserId, now: int, aid: Id, a: int, b: int)
    requires aid in v.auctions && v.auctions[aid].bidIncrement > 0
    requires RepoPlaceBid(v, x, now, aid, a).outcome.Ok?
    ensures var s1 := RepoPlaceBid(v, x, now, aid, a).store;
      var r := RepoPlaceBidFrom(v, s1, y, now, aid, b);
      && (r.outcome.Ok? <==> b >= a + v.auctions[aid].bidIncrement)
      && (r.outcome.Err? ==> r.outcome == Err(Conflict(TooLowOrEnded)) && r.store == s1)
  {
    var s1 := RepoPlaceBid(v, x, now, aid, a).store;
    assert s1.auctions[aid] == v.auctions[aid].(currentPrice := a);
  }

  /** The bid race of two bidders offering 110 on an auction at 100 with an
      increment of 5: exactly one bid row and a final price of 110. */
  lemma EqualBidsRace(v: Store, x: UserId, y: UserId, now: int, aid: Id)
    requires aid in v.auctions && v.auctions[aid].currentPrice == 100 && v.auctions[aid].bidIncrement == 5
    requires v.auctions[aid].status == Live && now < v.auctions[aid].endsAt
    ensures var s1 := RepoPlaceBid(v, x, now, aid, 110).store;
      var r := RepoPlaceBidFrom(v, s1, y, now, aid, 110);
      && RepoPlaceBid(v, x, now, aid, 110).outcome == Ok(BidPlaced)
      && r.outcome == Err(Conflict(TooLowOrEnded))
      && r.store.auctions[aid].currentPrice == 110
      && r.store.bids == v.bids + [Bid(aid, x, 110, now)]
  {
    RaceLoserGetsConflict(v, x, y, now, aid, 110, 110);
  }
}

=== FILE: coherence.dfy ===
/** Whether the Redis hashes of apps/server/src/index.ts keep mirroring the
    auction rows. The bid handler trusts a truthy cached price over the row,
    so every operation that changes a price must also write the hash. */
module Coherence {
  import opened Domain
  import Creation
  import CacheBidding
  import Lifecycle
  import Negotiation

  /** Every auction's hash mirrors its row. */
  predicate CacheCoherent(s: Store) {
    forall aid :: aid in s.auctions ==> CacheBidding.Coherent(s, aid)
  }

  /** Listing seeds the new auction's hash with the row's own values. */
  lemma CreateKeepsCoherent(s: Store, caller: UserId, now: int, id: Id, q: Creation.CreateRequest)
    requires id !in s.auctions && CacheCoherent(s)
    ensures CacheCoherent(Creation.CreateAuction(s, caller, now, id, q).store)
  {
    var r := Creation.CreateAuction(s, caller, now, id, q).store;
    forall k | k in r.auctions
      ensures CacheBidding.Coherent(r, k)
    {
      if k != id {
        assert CacheBidding.EntryOf(r.cache, k) == CacheBidding.EntryOf(s.cache, k);
        assert CacheBidding.Coherent(s, k);
      }
    }
  }

  /** An admitted bid writes the same price to the row and to the hash, and
      a refused one only seeds a hash from the values it read. */
  lemma PlaceBidKeepsCoherent(s: Store, caller: UserId, now: int, aid: Id, amount: int)
    requires CacheCoherent(s)
    ensures CacheCoherent(CacheBidding.PlaceBid(s, caller, now, aid, amount).store)
  {
    var r := CacheBidding.PlaceBid(s, caller, now, aid, amount).store;
    if aid in s.auctions {
      CacheBidding.CoherentBidIsMonotone(s, caller, now, aid, amount);
      forall k | k in r.auctions && k != aid
        ensures CacheBidding.Coherent(r, k)
      {
        assert CacheBidding.Coherent(s, k);
      }
    }
  }

  /** The seller's end changes only a status, which the hash does not hold. */
  lemma EndKeepsCoherent(s: Store, caller: UserId, aid: Id)
    requires CacheCoherent(s)
    ensures CacheCoherent(Lifecycle.EndAuction(s, caller, aid).store)
  {
    var r := Lifecycle.EndAuction(s, caller, aid).store;
    forall k | k in r.auctions
      ensures CacheBidding.Coherent(r, k)
    {
      assert CacheBidding.Coherent(s, k);
    }
  }

  /** A decision closes an auction or opens an offer; no price changes. */
  lemma DecideKeepsCoherent(s: Store, caller: UserId, aid: Id, action: Negotiation.Action, amount: Option<int>, offerId: Id)
    requires offerId !in s.offers && CacheCoherent(s)
    ensures CacheCoherent(Negotiation.Decide(s, caller, aid, action, amount, offerId).store)
  {
    var r := Negotiation.Decide(s, caller, aid, action, amount, offerId).store;
    forall k | k in r.auctions
      ensures CacheBidding.Coherent(r, k)
    {
      assert CacheBidding.Coherent(s, k);
    }
  }

  /** The sweep changes only statuses. */
  lemma SweepKeepsCoherent(s: Store, now: int, rows: seq<Id>)
    requires Lifecycle.LiveListing(s, rows) && CacheCoherent(s)
    ensures CacheCoherent(Lifecycle.Sweep(s, now, rows))
  {
    var r := Lifecycle.Sweep(s, now, rows);
    forall k | k in r.auctions
      ensures CacheBidding.Coherent(r, k)
    {
      assert CacheBidding.Coherent(s, k);
      assert r.auctions[k] == Lifecycle.Swept(s.auctions[k], now);
    }
  }

  /** As written, an accepted counter-offer sets the row's price and leaves
      the hash alone. With no concurrent request at all, the top bid of 250
      is countered at 275 and accepted; a later bid of 255 is then judged
      against the cached 250 and admitted, and the price falls to 255. */
  lemma AcceptedCounterLowersPrice(s: Store, seller: UserId, buyer: UserId, bidder: UserId, now: int, aid: Id, offerId: Id)
    requires aid in s.auctions && s.auctions[aid].sellerId == seller && offerId !in s.offers
    requires s.auctions[aid].currentPrice == 250 && s.auctions[aid].bidIncrement == 5
    requires now <= s.auctions[aid].endsAt
    requires s.cache.Redis? && aid in s.cache.entries
    requires s.cache.entries[aid] == CacheEntry(Some(250), Some(5), Some(s.auctions[aid].endsAt))
    requires s.bids == [Bid(aid, buyer, 250, 0)]
    ensures CacheBidding.Coherent(s, aid)
    ensures var s1 := Negotiation.Decide(s, seller, aid, Negotiation.Counter, Some(275), offerId).store;
      var s2 := Negotiation.ReplyToCounter(s1, buyer, offerId, true).store;
      var r := CacheBidding.PlaceBid(s2, bidder, now, aid, 255);
      && s2.auctions[aid].currentPrice == 275
      && !CacheBidding.Coherent(s2, aid)
      && r.outcome == Ok(BidPlaced)
      && r.store.auctions[aid].currentPrice == 255
  {
    assert HasBid(s.bids, aid);
    assert TopBid(s.bids, aid) == Some(Bid(aid, buyer, 250, 0));
  }

  /** Corrected counter reply: an accepted offer's amount is written to the
      hash as well as to the row, as an admitted bid's is. */
  function ReplyToCounterMirrored(s: Store, caller: UserId, offerId: Id, accept: bool): (r: Step)
    ensures r.outcome == Negotiation.ReplyToCounter(s, caller, offerId, accept).outcome
    ensures r.store.(cache := s.cache) == Negotiation.ReplyToCounter(s, caller, offerId, accept).store
    ensures r.outcome.Ok? && accept && s.cache.Redis? ==>
      CacheBidding.EntryOf(r.store.cache, s.offers[offerId].auctionId).current == Some(s.offers[offerId].amount)
    ensures r.outcome.Ok? ==>
      forall k :: k != s.offers[offerId].auctionId ==> CacheBidding.EntryOf(r.store.cache, k) == CacheBidding.EntryOf(s.cache, k)
    ensures !(r.outcome.Ok? && accept) ==> r.store.cache == s.cache
    ensures r.store.cache.Disabled? <==> s.cache.Disabled?
  {
    var q := Negotiation.ReplyToCounter(s, caller, offerId, accept);
    if q.outcome.Ok? && accept then
      var c := s.offers[offerId];
      Step(q.outcome, q.store.(cache := CacheBidding.SetCurrent(s.cache, c.auctionId, c.amount)))
    else q
  }

  /** The corrected reply keeps every hash coherent. */
  lemma MirroredReplyKeepsCoherent(s: Store, caller: UserId, offerId: Id, accept: bool)
    requires CacheCoherent(s)
    ensures CacheCoherent(ReplyToCounterMirrored(s, caller, offerId, accept).store)
  {
    var r := ReplyToCounterMirrored(s, caller, offerId, accept).store;
    forall k | k in r.auctions
      ensures CacheBidding.Coherent(r, k)
    {
      assert CacheBidding.Coherent(s, k);
    }
  }

  /** With the corrected reply, the same negotiation leaves the hash at 275,
      and the bid of 255 is refused as too low. */
  lemma MirroredCounterKeepsPrice(s: Store, seller: UserId, buyer: UserId, bidder: UserId, now: int, aid: Id, offerId: Id)
    requires aid in s.auctions && s.auctions[aid].sellerId == seller && offerId !in s.offers
    requires s.auctions[aid].currentPrice == 250 && s.auctions[aid].bidIncrement == 5
    requires now <= s.auctions[aid].endsAt
    requires s.cache.Redis? && aid in s.cache.entries
    requires s.cache.entries[aid] == CacheEntry(Some(250), Some(5), Some(s.auctions[aid].endsAt))
    requires s.bids == [Bid(aid, buyer, 250, 0)]
    ensures var s1 := Negotiation.Decide(s, seller, aid, Negotiation.Counter, Some(275), offerId).store;
      var s2 := ReplyToCounterMirrored(s1, buyer, offerId, true).store;
      var r := CacheBidding.PlaceBid(s2, bidder, now, aid, 255);
      && s2.auctions[aid].currentPrice == 275
      && CacheBidding.Coherent(s2, aid)
      && r == Fail(Conflict(BidTooLow), s2)
  {
    assert HasBid(s.bids, aid);
    assert TopBid(s.bids, aid) == Some(Bid(aid, buyer, 250, 0));
  }
}

=== FILE: creation.dfy ===
/** Listing a new auction: the route handler in apps/server/src/index.ts
    (validated body, Redis seeded) and `createAuction` in
    apps/server/src/supaRepo.ts (no validation, no cache). */
module Creation {
  import opened Domain

  const MinuteMs := 60000
  /** Seven days, the largest duration the listing schema admits. */
  const MaxDurationMinutes := 7 * 24 * 60

  datatype CreateRequest = CreateRequest(
    title: string,
    description: Option<string>,
    startingPrice: int,
    bidIncrement: int,
    goLiveAt: int,
    durationMinutes: int)

  /** The numeric and length bounds the listing schema enforces. */
  predicate ValidRequest(q: CreateRequest) {
    && 3 <= |q.title| <= 120
    && (q.description.Some? ==> |q.description.value| <= 2000)
    && q.startingPrice >= 0
    && q.bidIncrement > 0
    && 1 <= q.durationMinutes <= MaxDurationMinutes
  }

  /** The row both backends insert: it ends `durationMinutes` after going
      live, starts at its starting price, and is live at once when its
      go-live time is not in the future. */
  function NewAuction(q: CreateRequest, seller: UserId, now: int): (a: Auction)
    ensures a.endsAt - a.goLiveAt == q.durationMinutes * MinuteMs
    ensures a.goLiveAt == q.goLiveAt && a.currentPrice == a.startingPrice == q.startingPrice
    ensures a.bidIncrement == q.bidIncrement && a.sellerId == seller
    ensures a.status == Live <==> now >= q.goLiveAt
    ensures a.status == Scheduled <==> now < q.goLiveAt
  {
    Auction(
      sellerId := seller,
      title := q.title,
      description := q.description,
      startingPrice := q.startingPrice,
      bidIncrement := q.bidIncrement,
      currentPrice := q.startingPrice,
      goLiveAt := q.goLiveAt,
      endsAt := q.goLiveAt + q.durationMinutes * MinuteMs,
      status := if now >= q.goLiveAt then Live else Scheduled)
  }

  /** The cache entry written for `a`: all three fields mirror the row. */
  function Mirror(a: Auction): CacheEntry {
    CacheEntry(Some(a.currentPrice), Some(a.bidIncrement), Some(a.endsAt))
  }

  /** POST /api/auctions. `id` is the fresh id the handler generates. */
  function CreateAuction(s: Store, caller: UserId, now: int, id: Id, q: CreateRequest): (r: Step)
    requires id !in s.auctions
    ensures r.outcome.Ok? <==> ValidRequest(q)
    ensures r.outcome.Err? ==> r == Step(Err(BadRequest), s)
    ensures r.outcome.Ok? ==>
      && r.outcome.reply == Created(id)
      && r.store.auctions == s.auctions[id := NewAuction(q, caller, now)]
      && r.store.bids == s.bids && r.store.offers == s.offers
      && r.store.notifications == s.notifications && r.store.events == s.events
      && (s.cache.Redis? ==> r.store.cache == Redis(s.cache.entries[id := Mirror(r.store.auctions[id])]))
      && (s.cache.Disabled? ==> r.store.cache.Disabled?)
    ensures Evolves(s, r.store)
  {
    if !ValidRequest(q) then Fail(BadRequest, s)
    else
      var a := NewAuction(q, caller, now);
      var cache := if s.cache.Redis? then Redis(s.cache.entries[id := Mirror(a)]) else Disabled;
      Step(Ok(Created(id)), s.(auctions := s.auctions[id := a], cache := cache))
  }

  /** supaRepo `createAuction`: the same row, inserted without validating
      the body and without touching the cache. */
  function RepoCreateAuction(s: Store, caller: UserId, now: int, id: Id, q: CreateRequest): (r: Step)
    requires id !in s.auctions
    ensures r.outcome == Ok(Created(id))
    ensures r.store.auctions.Keys == s.auctions.Keys + {id}
    ensures r.store.auctions[id] == NewAuction(q, caller, now)
    ensures forall k :: k in s.auctions ==> r.store.auctions[k] == s.auctions[k]
    ensures r.store.(auctions := s.auctions) == s
    ensures var a := r.store.auctions[id];
      && a.endsAt == q.goLiveAt + q.durationMinutes * MinuteMs
      && a.currentPrice == q.startingPrice && a.sellerId == caller
      && (a.status == Live <==> now >= q.goLiveAt)
      && (a.status == Scheduled <==> now < q.goLiveAt)
    ensures Evolves(s, r.store)
  {
    Step(Ok(Created(id)), s.(auctions := s.auctions[id := NewAuction(q, caller, now)]))
  }

  /** For a request the listing schema admits, both backends insert the
      same auction row. */
  lemma BackendsCreateSameRow(s: Store, caller: UserId, now: int, id: Id, q: CreateRequest)
    requires id !in s.auctions && ValidRequest(q)
    ensures CreateAuction(s, caller, now, id, q).store.auctions == RepoCreateAuction(s, caller, now, id, q).store.auctions
  {
  }

  /** What the listing schema guarantees of a row: a positive increment, a
      non-negative starting price and a listing window of one minute to
      seven days. All of these are fixed fields. */
  predicate SchemaRow(a: Auction) {
    && a.bidIncrement > 0
    && a.startingPrice >= 0
    && MinuteMs <= a.endsAt - a.goLiveAt <= MaxDurationMinutes * MinuteMs
  }

  /** A row listed through the handler meets the schema in every later
      state of the store, whatever operations ran in between. */
  lemma ListedRowStaysSchemaRow(s: Store, caller: UserId, now: int, id: Id, q: CreateRequest, u: Store)
    requires id !in s.auctions && CreateAuction(s, caller, now, id, q).outcome.Ok?
    requires Evolves(CreateAuction(s, caller, now, id, q).store, u)
    ensures id in u.auctions && SchemaRow(u.auctions[id])
  {
    var t := CreateAuction(s, caller, now, id, q).store;
    assert SchemaRow(t.auctions[id]);
    assert SameFixedFields(t.auctions[id], u.auctions[id]);
  }
}

=== FILE: domain.dfy ===
/** The auction engine's data: auctions, bids, counter-offers, the durable
    notification inbox, the real-time event stream and the Redis price cache,
    all held in one immutable `Store` value. Every operation of the engine is
    a pure function from a store (plus caller, clock reading and arguments)
    to a `Step`: an outcome and the store afterwards.

    Times are integer milliseconds since the epoch and prices are integers.
    Bids and notifications carry no id of their own: their position in the
    append-only log identifies them. Auction and counter-offer ids are fresh
    values supplied by the caller of each operation. */
module Domain {

  type Id = string
  type UserId = string

  datatype Option<T> = None | Some(value: T)

  datatype Status = Scheduled | Live | Ended | Closed

  datatype Auction = Auction(
    sellerId: UserId,
    title: string,
    description: Option<string>,
    startingPrice: int,
    bidIncrement: int,
    currentPrice: int,
    goLiveAt: int,
    endsAt: int,
    status: Status)

  /** One admitted bid; `createdAt` is the clock reading of the request. */
  datatype Bid = Bid(auctionId: Id, bidderId: UserId, amount: int, createdAt: int)

  datatype OfferStatus = Pending | Accepted | Rejected

  datatype CounterOffer = CounterOffer(
    auctionId: Id,
    sellerId: UserId,
    buyerId: UserId,
    amount: int,
    status: OfferStatus)

  /** The `type` and `payload` of a durable notification row. */
  datatype Notice =
    | NotifyOutbid(auctionId: Id, amount: int)       // bid:outbid
    | NotifyEnded(auctionId: Id, final: int)         // auction:ended
    | NotifyAccepted(auctionId: Id, amount: int)     // offer:accepted
    | NotifyRejected(auctionId: Id)                  // offer:rejected
    | NotifyCounter(auctionId: Id, amount: int)      // offer:counter

  datatype Notification = Notification(userId: UserId, notice: Notice, read: bool)

  /** A broadcast WebSocket message, by its `type` field. */
  datatype Event =
    | BidAccepted(auctionId: Id, amount: int, userId: UserId, at: int)
    | AuctionEnded(auctionId: Id, final: int)
    | AuctionAccepted(auctionId: Id, winnerId: UserId, amount: int)
    | AuctionRejected(auctionId: Id)
    | OfferCounter(auctionId: Id, amount: int, buyerId: UserId)
    | OfferAccepted(auctionId: Id, amount: int)
    | OfferRejected(auctionId: Id)

  /** The Redis hash `auction:<id>`; each field may be missing. */
  datatype CacheEntry = CacheEntry(current: Option<int>, step: Option<int>, endsAt: Option<int>)

  /** Redis is optional: without its credentials the handlers skip every
      cache read and write. */
  datatype Cache = Disabled | Redis(entries: map<Id, CacheEntry>)

  datatype Store = Store(
    auctions: map<Id, Auction>,
    bids: seq<Bid>,
    offers: map<Id, CounterOffer>,
    notifications: seq<Notification>,
    events: seq<Event>,
    cache: Cache)

  datatype Conflict = AuctionOver | BidTooLow | TooLowOrEnded | NoBids

  datatype Failure = BadRequest | Forbidden | NotFound | Conflict(reason: Conflict)

  /** What a successful call answers. */
  datatype Reply =
    | Created(auctionId: Id)
    | BidPlaced
    | Done
    | Won(winnerId: UserId, amount: int)
    | Settled(amount: int)

  datatype Outcome = Ok(reply: Reply) | Err(failure: Failure)

  datatype Step = Step(outcome: Outcome, store: Store)

  function Fail(f: Failure, s: Store): Step {
    Step(Err(f), s)
  }

  /** A fresh, unread notification row. */
  function Notify(userId: UserId, notice: Notice): Notification {
    Notification(userId, notice, false)
  }

  /** JavaScript truthiness of an optional number: missing and 0 are falsy. */
  predicate Truthy(o: Option<int>) {
    o.Some? && o.value != 0
  }

  predicate HasBid(bids: seq<Bid>, aid: Id) {
    exists i :: 0 <= i < |bids| && bids[i].auctionId == aid
  }

  /** The position of the bid a query "where auctionId order by createdAt
      desc limit 1" returns: the last bid on `aid` in the log, whose order
      is the order of `createdAt`. */
  function LastBidIndex(bids: seq<Bid>, aid: Id): (r: Option<nat>)
    ensures r.None? <==> !HasBid(bids, aid)
    ensures r.Some? ==> r.value < |bids| && bids[r.value].auctionId == aid
    ensures r.Some? ==> forall j :: r.value < j < |bids| ==> bids[j].auctionId != aid
    decreases |bids|
  {
    if |bids| == 0 then None
    else if bids[|bids| - 1].auctionId == aid then Some(|bids| - 1)
    else
      var prefix := bids[..|bids| - 1];
      assert forall j :: 0 <= j < |prefix| ==> prefix[j] == bids[j];
      LastBidIndex(prefix, aid)
  }

  /** The most recent bid on `aid`: no later bid in the log is on `aid`. */
  function LastBidFor(bids: seq<Bid>, aid: Id): (r: Option<Bid>)
    ensures r.None? <==> !HasBid(bids, aid)
    ensures r.Some? ==> r.value in bids && r.value.auctionId == aid
    ensures r.Some? ==>
      exists i :: 0 <= i < |bids| && bids[i] == r.value && forall j :: i < j < |bids| ==> bids[j].auctionId != aid
  {
    match LastBidIndex(bids, aid)
    case None => None
    case Some(i) => Some(bids[i])
  }

  /** The position of the bid a query "where auctionId order by amount desc
      limit 1" returns: a bid on `aid` of the highest amount, the earliest
      one among equals. */
  function TopBidIndex(bids: seq<Bid>, aid: Id): (r: Option<nat>)
    ensures r.None? <==> !HasBid(bids, aid)
    ensures r.Some? ==> r.value < |bids| && bids[r.value].auctionId == aid
    ensures r.Some? ==> forall j :: 0 <= j < |bids| && bids[j].auctionId == aid ==> bids[j].amount <= bids[r.value].amount
    ensures r.Some? ==> forall j :: 0 <= j < r.value && bids[j].auctionId == aid ==> bids[j].amount < bids[r.value].amount
    decreases |bids|
  {
    if |bids| == 0 then None
    else
      var rest := TopBidIndex(bids[1..], aid);
      assert forall j :: 1 <= j < |bids| ==> bids[j] == bids[1..][j - 1];
      if bids[0].auctionId != aid then
        if rest.Some? then Some(rest.value + 1) else None
      else if rest.Some? && bids[1..][rest.value].amount > bids[0].amount then Some(rest.value + 1)
      else Some(0)
  }

  function TopBid(bids: seq<Bid>, aid: Id): (r: Option<Bid>)
    ensures r.None? <==> !HasBid(bids, aid)
    ensures r.Some? ==> r.value in bids && r.value.auctionId == aid
    ensures r.Some? ==> forall b :: b in bids && b.auctionId == aid ==> b.amount <= r.value.amount
  {
    match TopBidIndex(bids, aid)
    case None => None
    case Some(i) => Some(bids[i])
  }

  /** The outbid notification a handler sends after an admitted bid: to the
      bidder of `last` when that is someone other than the caller. */
  function OutbidNotices(last: Option<Bid>, caller: UserId, aid: Id, amount: int): (r: seq<Notification>)
    ensures |r| <= 1
    ensures |r| == 1 <==> last.Some? && last.value.bidderId != caller
    ensures forall n :: n in r ==> n == Notify(last.value.bidderId, NotifyOutbid(aid, amount))
  {
    if last.Some? && last.value.bidderId != caller then
      [Notify(last.value.bidderId, NotifyOutbid(aid, amount))]
    else []
  }

  /** The fields fixed when an auction is created: no operation changes them. */
  predicate SameFixedFields(a: Auction, b: Auction) {
    && a.sellerId == b.sellerId
    && a.title == b.title
    && a.description == b.description
    && a.startingPrice == b.startingPrice
    && a.bidIncrement == b.bidIncrement
    && a.goLiveAt == b.goLiveAt
    && a.endsAt == b.endsAt
  }

  predicate SameOfferTerms(c: CounterOffer, d: CounterOffer) {
    c.auctionId == d.auctionId && c.sellerId == d.sellerId && c.buyerId == d.buyerId && c.amount == d.amount
  }

  /** `t` is a later state of `s`: no auction or offer is deleted, no fixed
      field changes, and the bid, notification and event logs only grow. */
  predicate Evolves(s: Store, t: Store) {
    && s.auctions.Keys <= t.auctions.Keys
    && (forall k :: k in s.auctions ==> SameFixedFields(s.auctions[k], t.auctions[k]))
    && s.offers.Keys <= t.offers.Keys
    && (forall k :: k in s.offers ==> SameOfferTerms(s.offers[k], t.offers[k]))
    && s.bids <= t.bids
    && s.notifications <= t.notifications
    && s.events <= t.events
  }

  /** A sequence of operations, each keeping `Evolves`, keeps it as a whole. */
  lemma EvolvesTransitive(s: Store, t: Store, u: Store)
    requires Evolves(s, t) && Evolves(t, u)
    ensures Evolves(s, u)
  {
  }
}

=== FILE: lifecycle.dfy ===
/** The `live -> ended` edge: the seller's explicit end (both backends) and
    one run of the expiry sweep of apps/server/src/index.ts. */
module Lifecycle {
  import opened Domain

  /** The seller's summary of an ended auction. */
  function EndedNote(aid: Id, a: Auction): Notification {
    Notify(a.sellerId, NotifyEnded(aid, a.currentPrice))
  }

  /** POST /api/auctions/:id/end. The status is overwritten whatever it was. */
  function EndAuction(s: Store, caller: UserId, aid: Id): (r: Step)
    ensures aid !in s.auctions ==> r == Fail(NotFound, s)
    ensures aid in s.auctions && s.auctions[aid].sellerId != caller ==> r == Fail(Forbidden, s)
    ensures r.outcome.Ok? <==> aid in s.auctions && s.auctions[aid].sellerId == caller
    ensures r.outcome.Ok? ==>
      var a := s.auctions[aid];
      && r.outcome.reply == Done
      && r.store.auctions == s.auctions[aid := a.(status := Ended)]
      && r.store.events == s.events + [AuctionEnded(aid, a.currentPrice)]
      && r.store.notifications == s.notifications + [Notify(caller, NotifyEnded(aid, a.currentPrice))]
      && r.store.bids == s.bids && r.store.offers == s.offers && r.store.cache == s.cache
    ensures Evolves(s, r.store)
  {
    if aid !in s.auctions then Fail(NotFound, s)
    else
      var a := s.auctions[aid];
      if a.sellerId != caller then Fail(Forbidden, s)
      else
        Step(Ok(Done), s.(
          auctions := s.auctions[aid := a.(status := Ended)],
          events := s.events + [AuctionEnded(aid, a.currentPrice)],
          notifications := s.notifications + [EndedNote(aid, a)]))
  }

  /** supaRepo `endAuction`: the same checks and writes, without a broadcast. */
  function RepoEndAuction(s: Store, caller: UserId, aid: Id): (r: Step)
    ensures aid !in s.auctions ==> r == Fail(NotFound, s)
    ensures aid in s.auctions && s.auctions[aid].sellerId != caller ==> r == Fail(Forbidden, s)
    ensures r.outcome.Ok? <==> aid in s.auctions && s.auctions[aid].sellerId == caller
    ensures r.outcome.Ok? ==>
      var a := s.auctions[aid];
      && r.outcome.reply == Done
      && r.store.auctions == s.auctions[aid := a.(status := Ended)]
      && r.store.notifications == s.notifications + [Notify(caller, NotifyEnded(aid, a.currentPrice))]
      && r.store.events == s.events
    ensures Evolves(s, r.store)
  {
    if aid !in s.auctions then Fail(NotFound, s)
    else
      var a := s.auctions[aid];
      if a.sellerId != caller then Fail(Forbidden, s)
      else
        Step(Ok(Done), s.(
          auctions := s.auctions[aid := a.(status := Ended)],
          notifications := s.notifications + [EndedNote(aid, a)]))
  }

  /** Both backends leave the same auctions and notifications behind; they
      differ only in the broadcast. */
  lemma BackendsEndAlike(s: Store, caller: UserId, aid: Id)
    ensures var r := EndAuction(s, caller, aid);
      var q := RepoEndAuction(s, caller, aid);
      r.outcome == q.outcome && r.store == q.store.(events := r.store.events)
  {
  }

  /** Nothing stops the end action from moving a closed auction back to
      `ended`: the status order is not enforced. */
  lemma EndReopensClosed(s: Store, aid: Id)
    requires aid in s.auctions && s.auctions[aid].status == Closed
    ensures var r := EndAuction(s, s.auctions[aid].sellerId, aid);
      r.outcome == Ok(Done) && r.store.auctions[aid].status == Ended
  {
  }

  /** An auction the sweep ends: still live and its deadline not ahead. */
  predicate Expires(a: Auction, now: int) {
    a.status == Live && a.endsAt <= now
  }

  /** What the sweep makes of one auction. */
  function Swept(a: Auction, now: int): Auction {
    if Expires(a, now) then a.(status := Ended) else a
  }

  predicate NoDuplicates(ids: seq<Id>) {
    forall i, j :: 0 <= i < j < |ids| ==> ids[i] != ids[j]
  }

  /** `rows` is what the sweep's query "where status = live" returns: each
      live auction exactly once, in the store's order. */
  predicate LiveListing(s: Store, rows: seq<Id>) {
    && NoDuplicates(rows)
    && (forall k :: k in rows ==> k in s.auctions && s.auctions[k].status == Live)
    && (forall k :: k in s.auctions && s.auctions[k].status == Live ==> k in rows)
  }

  /** The loop body for one listed row. */
  function SweepRow(s: Store, now: int, k: Id): Store {
    if k in s.auctions && Expires(s.auctions[k], now) then
      var a := s.auctions[k];
      s.(auctions := s.auctions[k := a.(status := Ended)],
         events := s.events + [AuctionEnded(k, a.currentPrice)],
         notifications := s.notifications + [EndedNote(k, a)])
    else s
  }

  /** The loop over the listed rows, in order. */
  function SweepRows(s: Store, now: int, rows: seq<Id>): Store
    decreases |rows|
  {
    if |rows| == 0 then s else SweepRows(SweepRow(s, now, rows[0]), now, rows[1..])
  }

  /** The listed rows the sweep ends, in order. */
  function ExpiredIds(s: Store, now: int, rows: seq<Id>): (ids: seq<Id>)
    ensures forall k :: k in ids ==> k in rows && k in s.auctions && Expires(s.auctions[k], now)
    decreases |rows|
  {
    if |rows| == 0 then []
    else if rows[0] in s.auctions && Expires(s.auctions[rows[0]], now) then [rows[0]] + ExpiredIds(s, now, rows[1..])
    else ExpiredIds(s, now, rows[1..])
  }

  /** Every expired listed auction is among the ids, and distinct rows give
      distinct ids. */
  lemma {:induction false} ExpiredIdsComplete(s: Store, now: int, rows: seq<Id>)
    requires NoDuplicates(rows)
    ensures forall k :: k in rows && k in s.auctions && Expires(s.auctions[k], now) ==> k in ExpiredIds(s, now, rows)
    ensures NoDuplicates(ExpiredIds(s, now, rows))
    decreases |rows|
  {
    if |rows| > 0 {
      var rest := rows[1..];
      assert NoDuplicates(rest) && rows[0] !in rest by {
        assert forall i :: 0 <= i < |rest| ==> rest[i] == rows[i + 1];
      }
      ExpiredIdsComplete(s, now, rest);
      assert forall k :: k in rows ==> k == rows[0] || k in rest;
    }
  }

  /** One `auction:ended` event per id, carrying the price in `s`. */
  function EndedEvents(s: Store, ids: seq<Id>): (es: seq<Event>)
    requires forall k :: k in ids ==> k in s.auctions
    ensures |es| == |ids|
    ensures forall i :: 0 <= i < |ids| ==> es[i] == AuctionEnded(ids[i], s.auctions[ids[i]].currentPrice)
  {
    seq(|ids|, i requires 0 <= i < |ids| => AuctionEnded(ids[i], s.auctions[ids[i]].currentPrice))
  }

  /** One seller notification per id. */
  function EndedNotes(s: Store, ids: seq<Id>): (ns: seq<Notification>)
    requires forall k :: k in ids ==> k in s.auctions
    ensures |ns| == |ids|
    ensures forall i :: 0 <= i < |ids| ==> ns[i] == EndedNote(ids[i], s.auctions[ids[i]])
  {
    seq(|ids|, i requires 0 <= i < |ids| => EndedNote(ids[i], s.auctions[ids[i]]))
  }

  /** The sweep's outputs row by row, all read from the state before it. */
  function RowEvents(s: Store, now: int, rows: seq<Id>): seq<Event>
    decreases |rows|
  {
    if |rows| == 0 then []
    else if rows[0] in s.auctions && Expires(s.auctions[rows[0]], now) then
      [AuctionEnded(rows[0], s.auctions[rows[0]].currentPrice)] + RowEvents(s, now, rows[1..])
    else RowEvents(s, now, rows[1..])
  }

  function RowNotes(s: Store, now: int, rows: seq<Id>): seq<Notification>
    decreases |rows|
  {
    if |rows| == 0 then []
    else if rows[0] in s.auctions && Expires(s.auctions[rows[0]], now) then
      [EndedNote(rows[0], s.auctions[rows[0]])] + RowNotes(s, now, rows[1..])
    else RowNotes(s, now, rows[1..])
  }

  /** One run of the expiry sweep over the live auctions `rows`: it ends
      exactly the live auctions past their deadline, leaves every other
      auction as it was, and emits one `auction:ended` event and one seller
      notification for each auction it ends, and nothing else. */
  function Sweep(s: Store, now: int, rows: seq<Id>): (r: Store)
    requires LiveListing(s, rows)
    ensures var ids := ExpiredIds(s, now, rows);
      && r.auctions == (map k | k in s.auctions :: Swept(s.auctions[k], now))
      && (forall k :: k in ids <==> k in s.auctions && Expires(s.auctions[k], now))
      && NoDuplicates(ids)
      && r.events == s.events + EndedEvents(s, ids)
      && r.notifications == s.notifications + EndedNotes(s, ids)
      && r.bids == s.bids && r.offers == s.offers && r.cache == s.cache
    ensures Evolves(s, r)
  {
    SweepRowsEffect(s, now, rows);
    SweepRows(s, now, rows)
  }

  /** The sweep over rows that are pairwise distinct replaces every listed
      auction by its swept form and leaves every other one alone. */
  lemma {:induction false} SweepRowsAuctions(s: Store, now: int, rows: seq<Id>)
    requires NoDuplicates(rows)
    ensures var r := SweepRows(s, now, rows);
      && r.auctions.Keys == s.auctions.Keys
      && (forall k :: k in s.auctions && k in rows ==> r.auctions[k] == Swept(s.auctions[k], now))
      && (forall k :: k in s.auctions && k !in rows ==> r.auctions[k] == s.auctions[k])
      && r.bids == s.bids && r.offers == s.offers && r.cache == s.cache
    decreases |rows|
  {
    if |rows| > 0 {
      var k := rows[0];
      var rest := rows[1..];
      var s1 := SweepRow(s, now, k);
      assert NoDuplicates(rest) && k !in rest by {
        assert forall i :: 0 <= i < |rest| ==> rest[i] == rows[i + 1];
      }
      SweepRowsAuctions(s1, now, rest);
      assert forall j :: j in rows ==> j == k || j in rest;
    }
  }

  /** The logs grow by the row-by-row outputs, each row's read from the
      state before the sweep: the earlier rows' writes do not affect it. */
  lemma {:induction false} SweepRowsLogs(s: Store, now: int, rows: seq<Id>)
    requires NoDuplicates(rows)
    ensures SweepRows(s, now, rows).events == s.events + RowEvents(s, now, rows)
    ensures SweepRows(s, now, rows).notifications == s.notifications + RowNotes(s, now, rows)
    decreases |rows|
  {
    if |rows| > 0 {
      var k := rows[0];
      var rest := rows[1..];
      assert NoDuplicates(rest) && k !in rest by {
        assert forall i :: 0 <= i < |rest| ==> rest[i] == rows[i + 1];
      }
      var s1 := SweepRow(s, now, k);
      SweepRowsLogs(s1, now, rest);
      RowOutputsFrame(s, s1, now, rest);
    }
  }

  /** The row outputs depend only on the listed auctions. */
  lemma {:induction false} RowOutputsFrame(s: Store, t: Store, now: int, rows: seq<Id>)
    requires forall j :: j in rows ==> (j in s.auctions <==> j in t.auctions)
    requires forall j :: j in rows && j in s.auctions ==> s.auctions[j] == t.auctions[j]
    ensures RowEvents(s, now, rows) == RowEvents(t, now, rows)
    ensures RowNotes(s, now, rows) == RowNotes(t, now, rows)
    decreases |rows|
  {
    if |rows| > 0 {
      assert forall j :: j in rows[1..] ==> j in rows;
      RowOutputsFrame(s, t, now, rows[1..]);
    }
  }

  /** Row by row, the outputs are one event and one notification per
      expired id. */
  lemma {:induction false} RowOutputsPerExpired(s: Store, now: int, rows: seq<Id>)
    ensures RowEvents(s, now, rows) == EndedEvents(s, ExpiredIds(s, now, rows))
    ensures RowNotes(s, now, rows) == EndedNotes(s, ExpiredIds(s, now, rows))
    decreases |rows|
  {
    if |rows| > 0 {
      var k := rows[0];
      RowOutputsPerExpired(s, now, rows[1..]);
      var ids := ExpiredIds(s, now, rows[1..]);
      if k in s.auctions && Expires(s.auctions[k], now) {
        assert EndedEvents(s, [k] + ids) == [AuctionEnded(k, s.auctions[k].currentPrice)] + EndedEvents(s, ids);
        assert EndedNotes(s, [k] + ids) == [EndedNote(k, s.auctions[k])] + EndedNotes(s, ids);
      }
    }
  }

  /** The loop over a live listing ends exactly the expired auctions, with
      one event and one notification for each. */
  lemma SweepRowsEffect(s: Store, now: int, rows: seq<Id>)
    requires LiveListing(s, rows)
    ensures var r := SweepRows(s, now, rows);
      var ids := ExpiredIds(s, now, rows);
      && r.auctions == (map k | k in s.auctions :: Swept(s.auctions[k], now))
      && (forall k :: k in ids <==> k in s.auctions && Expires(s.auctions[k], now))
      && NoDuplicates(ids)
      && r.events == s.events + EndedEvents(s, ids)
      && r.notifications == s.notifications + EndedNotes(s, ids)
      && r.bids == s.bids && r.offers == s.offers && r.cache == s.cache
  {
    SweepRowsAuctions(s, now, rows);
    SweepRowsLogs(s, now, rows);
    RowOutputsPerExpired(s, now, rows);
    ExpiredIdsComplete(s, now, rows);
    var r := SweepRows(s, now, rows);
    forall k | k in s.auctions && k !in rows
      ensures r.auctions[k] == Swept(s.auctions[k], now)
    {
      assert s.auctions[k].status != Live;
    }
  }

  /** A sweep on rows whose auctions are all live with a deadline ahead
      changes nothing. */
  lemma {:induction false} SweepOfUnexpiredIsNoOp(s: Store, now: int, rows: seq<Id>)
    requires forall k :: k in rows ==> k in s.auctions && s.auctions[k].status == Live && s.auctions[k].endsAt > now
    ensures SweepRows(s, now, rows) == s
    decreases |rows|
  {
    if |rows| > 0 {
      assert SweepRow(s, now, rows[0]) == s;
      assert forall k :: k in rows[1..] ==> k in rows;
      SweepOfUnexpiredIsNoOp(s, now, rows[1..]);
    }
  }

  /** A second sweep at the same clock reading, over whatever the live
      listing then is, is a no-op: the first left no live auction past its
      deadline. */
  lemma SweepIdempotent(s: Store, now: int, rows: seq<Id>, rows2: seq<Id>)
    requires LiveListing(s, rows)
    requires LiveListing(Sweep(s, now, rows), rows2)
    ensures Sweep(Sweep(s, now, rows), now, rows2) == Sweep(s, now, rows)
  {
    var r := Sweep(s, now, rows);
    forall k | k in rows2
      ensures k in r.auctions && r.auctions[k].status == Live && r.auctions[k].endsAt > now
    {
      assert r.auctions[k] == Swept(s.auctions[k], now);
    }
    SweepOfUnexpiredIsNoOp(r, now, rows2);
  }
}

=== FILE: negotiation.dfy ===
/** The seller's decision on the top bid and the buyer's reply to a
    counter-offer, in both backends. */
module Negotiation {
  import opened Domain

  datatype Action = Accept | Reject | Counter

  /** JavaScript `!amount`: a missing or zero counter amount. */
  predicate NoAmount(amount: Option<int>) {
    amount.None? || amount.value == 0
  }

  /** The decision's writes once the checks have passed; `broadcast` tells
      whether this backend also emits real-time events. */
  function Decided(s: Store, caller: UserId, aid: Id, action: Action, amount: Option<int>, offerId: Id,
                   tb: Bid, broadcast: bool): (r: Step)
    requires aid in s.auctions && s.auctions[aid].sellerId == caller && offerId !in s.offers && tb.auctionId == aid
    ensures r.outcome.Err? <==> action == Counter && NoAmount(amount)
    ensures r.outcome.Err? ==> r == Fail(BadRequest, s)
    ensures r.outcome.Ok? ==> Decision(s, r, aid, action, amount, offerId, tb, broadcast)
    ensures Evolves(s, r.store)
  {
    var a := s.auctions[aid];
    match action
    case Accept =>
      Step(Ok(Won(tb.bidderId, tb.amount)), s.(
        auctions := s.auctions[aid := a.(status := Closed)],
        events := if broadcast then s.events + [AuctionAccepted(aid, tb.bidderId, tb.amount)] else s.events,
        notifications := s.notifications + [Notify(tb.bidderId, NotifyAccepted(aid, tb.amount))]))
    case Reject =>
      Step(Ok(Done), s.(
        auctions := s.auctions[aid := a.(status := Closed)],
        events := if broadcast then s.events + [AuctionRejected(aid)] else s.events,
        notifications := s.notifications + [Notify(tb.bidderId, NotifyRejected(aid))]))
    case Counter =>
      if NoAmount(amount) then Fail(BadRequest, s)
      else
        Step(Ok(Done), s.(
          offers := s.offers[offerId := CounterOffer(aid, caller, tb.bidderId, amount.value, Pending)],
          events := if broadcast then s.events + [OfferCounter(aid, amount.value, tb.bidderId)] else s.events,
          notifications := s.notifications + [Notify(tb.bidderId, NotifyCounter(aid, amount.value))]))
  }

  /** POST /api/auctions/:id/decision. A present amount must be positive,
      whatever the action; `offerId` is the fresh id of a counter-offer. */
  function Decide(s: Store, caller: UserId, aid: Id, action: Action, amount: Option<int>, offerId: Id): (r: Step)
    requires offerId !in s.offers
    // the checks, in order
    ensures amount.Some? && amount.value <= 0 ==> r == Fail(BadRequest, s)
    ensures !(amount.Some? && amount.value <= 0) ==>
      && (aid !in s.auctions ==> r == Fail(NotFound, s))
      && (aid in s.auctions && s.auctions[aid].sellerId != caller ==> r == Fail(Forbidden, s))
      && (aid in s.auctions && s.auctions[aid].sellerId == caller && !HasBid(s.bids, aid) ==>
            r == Fail(Conflict(NoBids), s))
      && (aid in s.auctions && s.auctions[aid].sellerId == caller && HasBid(s.bids, aid) && action == Counter ==>
            (r.outcome == Err(BadRequest) <==> amount.None?))
    // a decision that passes every check succeeds
    ensures r.outcome.Ok? <==>
      && !(amount.Some? && amount.value <= 0)
      && aid in s.auctions && s.auctions[aid].sellerId == caller && HasBid(s.bids, aid)
      && !(action == Counter && amount.None?)
    ensures r.outcome.Err? ==> r.store == s
    ensures r.outcome.Ok? ==>
      && r.outcome.reply == Done && HasBid(s.bids, aid)
      && Decision(s, r, aid, action, amount, offerId, TopBid(s.bids, aid).value, true)
    ensures Evolves(s, r.store)
  {
    if amount.Some? && amount.value <= 0 then Fail(BadRequest, s)
    else if aid !in s.auctions then Fail(NotFound, s)
    else if s.auctions[aid].sellerId != caller then Fail(Forbidden, s)
    else
      match TopBid(s.bids, aid)
      case None => Fail(Conflict(NoBids), s)
      case Some(tb) =>
        var r := Decided(s, caller, aid, action, amount, offerId, tb, true);
        if r.outcome.Ok? then
          // accept answers { ok: true } here, not the winner
          Step(Ok(Done), r.store)
        else r
  }

  /** What a successful decision did with the top bid `tb`: accept and
      reject close the auction and notify its bidder; counter opens a
      pending offer to that bidder and leaves the auction alone. `events`
      tells whether the backend broadcasts. */
  predicate Decision(s: Store, r: Step, aid: Id, action: Action, amount: Option<int>, offerId: Id, tb: Bid, events: bool)
  {
    && aid in s.auctions
    && r.store.bids == s.bids && r.store.cache == s.cache
    && (action != Counter ==>
          && r.store.auctions == s.auctions[aid := s.auctions[aid].(status := Closed)]
          && r.store.offers == s.offers
          && r.store.notifications == s.notifications
               + [Notify(tb.bidderId, if action == Accept then NotifyAccepted(aid, tb.amount) else NotifyRejected(aid))]
          && r.store.events == s.events
               + (if events then [if action == Accept then AuctionAccepted(aid, tb.bidderId, tb.amount) else AuctionRejected(aid)] else []))
    && (action == Counter ==>
          && amount.Some? && amount.value != 0
          && r.store.auctions == s.auctions
          && r.store.offers == s.offers[offerId := CounterOffer(aid, s.auctions[aid].sellerId, tb.bidderId, amount.value, Pending)]
          && r.store.notifications == s.notifications + [Notify(tb.bidderId, NotifyCounter(aid, amount.value))]
          && r.store.events == s.events + (if events then [OfferCounter(aid, amount.value, tb.bidderId)] else []))
  }

  /** supaRepo `decision`: no schema, so a negative counter amount passes;
      accept answers the winner and amount; nothing is broadcast. */
  function RepoDecide(s: Store, caller: UserId, aid: Id, action: Action, amount: Option<int>, offerId: Id): (r: Step)
    requires offerId !in s.offers
    ensures aid !in s.auctions ==> r == Fail(NotFound, s)
    ensures aid in s.auctions && s.auctions[aid].sellerId != caller ==> r == Fail(Forbidden, s)
    ensures aid in s.auctions && s.auctions[aid].sellerId == caller && !HasBid(s.bids, aid) ==>
      r == Fail(Conflict(NoBids), s)
    ensures aid in s.auctions && s.auctions[aid].sellerId == caller && HasBid(s.bids, aid) && action == Counter ==>
      (r.outcome == Err(BadRequest) <==> NoAmount(amount))
    ensures r.outcome.Ok? <==>
      && aid in s.auctions && s.auctions[aid].sellerId == caller && HasBid(s.bids, aid)
      && !(action == Counter && NoAmount(amount))
    ensures r.outcome.Err? ==> r.store == s
    ensures r.outcome.Ok? ==> HasBid(s.bids, aid)
    ensures r.outcome.Ok? ==> Decision(s, r, aid, action, amount, offerId, TopBid(s.bids, aid).value, false)
    ensures r.outcome.Ok? && action == Accept ==>
      r.outcome.reply == Won(TopBid(s.bids, aid).value.bidderId, TopBid(s.bids, aid).value.amount)
    ensures Evolves(s, r.store)
  {
    if aid !in s.auctions then Fail(NotFound, s)
    else if s.auctions[aid].sellerId != caller then Fail(Forbidden, s)
    else
      match TopBid(s.bids, aid)
      case None => Fail(Conflict(NoBids), s)
      case Some(tb) => Decided(s, caller, aid, action, amount, offerId, tb, false)
  }

  /** A decision on an auction without bids fails whatever the action. */
  lemma NoBidsNoDecision(s: Store, aid: Id, amount: Option<int>, offerId: Id)
    requires aid in s.auctions && !HasBid(s.bids, aid) && offerId !in s.offers
    requires amount.None? || amount.value > 0
    ensures forall action: Action ::
      && Decide(s, s.auctions[aid].sellerId, aid, action, amount, offerId) == Fail(Conflict(NoBids), s)
      && RepoDecide(s, s.auctions[aid].sellerId, aid, action, amount, offerId) == Fail(Conflict(NoBids), s)
  {
  }

  /** For a well-formed request both backends make the same decision: the
      same outcome kind and the same store, up to the broadcast. */
  lemma BackendsDecideAlike(s: Store, caller: UserId, aid: Id, action: Action, amount: Option<int>, offerId: Id)
    requires offerId !in s.offers && (amount.None? || amount.value > 0)
    ensures var r := Decide(s, caller, aid, action, amount, offerId);
      var q := RepoDecide(s, caller, aid, action, amount, offerId);
      && r.outcome.Ok? == q.outcome.Ok?
      && (r.outcome.Err? ==> r.outcome == q.outcome)
      && r.store == q.store.(events := r.store.events)
  {
  }

  /** POST /api/counter/:id/reply. Any number of replies is taken: the
      offer's current status is never consulted. */
  function ReplyToCounter(s: Store, caller: UserId, offerId: Id, accept: bool): (r: Step)
    ensures offerId !in s.offers ==> r == Fail(NotFound, s)
    ensures offerId in s.offers && s.offers[offerId].buyerId != caller ==> r == Fail(Forbidden, s)
    ensures offerId in s.offers && s.offers[offerId].buyerId == caller && s.offers[offerId].auctionId !in s.auctions
      ==> r == Fail(NotFound, s)
    ensures r.outcome.Err? ==> r.store == s
    ensures r.outcome.Ok? <==>
      offerId in s.offers && s.offers[offerId].buyerId == caller && s.offers[offerId].auctionId in s.auctions
    ensures r.outcome.Ok? ==> Replied(s, r, offerId, accept)
    ensures r.outcome.Ok? ==>
      var c := s.offers[offerId];
      && r.outcome.reply == Done
      && r.store.events == s.events + [if accept then OfferAccepted(c.auctionId, c.amount) else OfferRejected(c.auctionId)]
    ensures Evolves(s, r.store)
  {
    var q := RepoReplyToCounter(s, caller, offerId, accept);
    if q.outcome.Err? then q
    else
      var c := s.offers[offerId];
      Step(Ok(Done), q.store.(events := s.events + [if accept then OfferAccepted(c.auctionId, c.amount) else OfferRejected(c.auctionId)]))
  }

  /** What a successful reply did: the offer takes the buyer's answer, the
      auction is closed and, on acceptance, sold at the counter amount; no
      notification is written and no bid changes. */
  predicate Replied(s: Store, r: Step, offerId: Id, accept: bool) {
    && offerId in s.offers
    && var c := s.offers[offerId];
    && c.auctionId in s.auctions
    && var a := s.auctions[c.auctionId];
    && r.store.offers == s.offers[offerId := c.(status := if accept then Accepted else Rejected)]
    && r.store.auctions == s.auctions[c.auctionId :=
         if accept then a.(currentPrice := c.amount, status := Closed) else a.(status := Closed)]
    && r.store.bids == s.bids && r.store.notifications == s.notifications && r.store.cache == s.cache
  }

  /** supaRepo `counterReply`: the same checks and writes, without a
      broadcast; acceptance answers the agreed amount. */
  function RepoReplyToCounter(s: Store, caller: UserId, offerId: Id, accept: bool): (r: Step)
    ensures offerId !in s.offers ==> r == Fail(NotFound, s)
    ensures offerId in s.offers && s.offers[offerId].buyerId != caller ==> r == Fail(Forbidden, s)
    ensures offerId in s.offers && s.offers[offerId].buyerId == caller && s.offers[offerId].auctionId !in s.auctions
      ==> r == Fail(NotFound, s)
    ensures r.outcome.Err? ==> r.store == s
    ensures r.outcome.Ok? <==>
      offerId in s.offers && s.offers[offerId].buyerId == caller && s.offers[offerId].auctionId in s.auctions
    ensures r.outcome.Ok? ==> Replied(s, r, offerId, accept) && r.store.events == s.events
    ensures r.outcome.Ok? ==> r.outcome.reply == if accept then Settled(s.offers[offerId].amount) else Done
    ensures Evolves(s, r.store)
  {
    if offerId !in s.offers then Fail(NotFound, s)
    else
      var c := s.offers[offerId];
      if c.buyerId != caller then Fail(Forbidden, s)
      else if c.auctionId !in s.auctions then Fail(NotFound, s)
      else
        var a := s.auctions[c.auctionId];
        if accept then
          Step(Ok(Settled(c.amount)), s.(
            offers := s.offers[offerId := c.(status := Accepted)],
            auctions := s.auctions[c.auctionId := a.(currentPrice := c.amount, status := Closed)]))
        else
          Step(Ok(Done), s.(
            offers := s.offers[offerId := c.(status := Rejected)],
            auctions := s.auctions[c.auctionId := a.(status := Closed)]))
  }

  /** A counter-offer is not single-use: after any reply, the buyer may reply
      again, and the second answer overwrites the first. */
  lemma SecondReplyOverwrites(s: Store, buyer: UserId, offerId: Id, first: bool, second: bool)
    requires ReplyToCounter(s, buyer, offerId, first).outcome.Ok?
    ensures var s1 := ReplyToCounter(s, buyer, offerId, first).store;
      var r := ReplyToCounter(s1, buyer, offerId, second);
      && s1.offers[offerId].status != Pending
      && r.outcome == Ok(Done)
      && r.store.offers[offerId].status == (if second then Accepted else Rejected)
  {
  }

  /** The full negotiation: the top bid is 250 from the buyer, the seller
      counters at 275 and the buyer accepts. The auction is closed at 275,
      the offer is accepted, and the only notification written is the
      counter-offer to the buyer. */
  lemma FullNegotiation(s: Store, seller: UserId, buyer: UserId, aid: Id, offerId: Id)
    requires aid in s.auctions && s.auctions[aid].sellerId == seller && offerId !in s.offers
    requires s.bids == [Bid(aid, buyer, 250, 0)]
    ensures var s1 := Decide(s, seller, aid, Counter, Some(275), offerId);
      var s2 := ReplyToCounter(s1.store, buyer, offerId, true);
      && s1.outcome == Ok(Done) && s2.outcome == Ok(Done)
      && s2.store.auctions[aid].status == Closed
      && s2.store.auctions[aid].currentPrice == 275
      && s2.store.offers[offerId] == CounterOffer(aid, seller, buyer, 275, Accepted)
      && s2.store.notifications == s.notifications + [Notify(buyer, NotifyCounter(aid, 275))]
  {
    assert HasBid(s.bids, aid);
    assert TopBid(s.bids, aid) == Some(Bid(aid, buyer, 250, 0));
  }
}
